=== FILE: README.md ===
# Posty, modelled in Dafny

Posty is a small PHP library for registering WordPress custom post types.
A `Posty` object holds a post type's name, its singular and plural names,
its labels and its registration arguments. It also installs filters and
actions that change the post type's admin list: remove columns, reorder
them, or add a column whose cells a callback renders.

A `ColumnRepository` keeps an ordered list of `Column` objects. A fresh one
holds the four columns WordPress always lists: `cb`, `title`, `author` and
`date`. The repository can add columns from descriptor arrays and remove
columns by id. `Arr`, `Repository` and the `Values` trait are the support
code these classes use.

The model follows the source's form:

- `Column`, `ColumnRepository`, `Repository` and `Posty` are classes whose
  methods update their fields. Their contracts state the new value of every
  field they change.
- The array helpers, the `Values` trait and the bodies of the column
  filters are functions, with lemmas about them.
- PHP arrays with string keys are ordered maps (`OrderedMaps`).
- A post type argument (`Argument`) is null, a boolean, an integer, a
  float, a string, a list, or a nested array with string keys.
- A list of columns is a `seq`. In `ColumnRepository` an item's integer key
  is always its position, or, after an `unset`, a key that still sorts in
  position order; the first item always has key 0. So the source's test
  `if($columnIndex)` is modelled as "the match is not at position 0".

Host functions are passed in as parameters:

- WordPress's `sanitize_title` is a `slug: string -> string` parameter.
- PHP's `strtolower` is a `lower` parameter.
- A column's value closure is a `() -> string` producer.

`add_filter` and `add_action` are modelled as logs on the `Posty` object.
`columnFilters` holds the filters in the order they were added, and
`cellActions` holds the cell actions. `ColumnFilters.ApplyAll` runs the
filters in that order, as WordPress does for filters of equal priority.

Where the documentation and the code differ, the model follows the code:

- `ColumnRepository::reorder` resolves its argument and changes nothing.
- `remove` never removes the first column, because `if($columnIndex)`
  treats index 0 as false. So `cb` cannot be removed while it is the
  first column, as in a new repository. A column added at order 0 takes
  the first place and becomes the one `remove` cannot reach, and `cb` can
  then be removed.
- `add` given neither an array nor a closure (a string, say) adds nothing.
- `addColumn` moves the column only for a truthy order. An order of 0
  leaves the new column at the end.
- `setLabels` does not refresh the `labels` entry of the arguments.
  `setArguments` rebuilds the defaults from the current labels.

## Model

| member | source | states |
|---|---|---|
| Arr.FirstIndex | src/Support/Arr.php:36-45 | the result is the position of the first element satisfying the condition: it satisfies it, none before it does, and None exactly when no element does |
| Arr.GetIndexWhere | src/Support/Arr.php:36-45 | the loop returns the index of the first match, or null when no element matches |
| Arr.FindWhere | src/Support/Arr.php:18-27 | returns the element at the first match, which satisfies the condition, or null exactly when nothing matches |
| Arr.InsertPosition | src/Support/Arr.php:57-67 | an index at or below 0 means the front, one at or beyond the count means the end, anything else is the index itself |
| Arr.Insert | src/Support/Arr.php:55-68 | one element longer; `[item] + s` for index <= 0, `s + [item]` for index >= count, otherwise the item sits at the index with the earlier elements before it and the later ones after it, and removing it gives back the input |
| Values.GetValueFromArrayOrClosure | src/Traits/Values.php:18-29 | an array comes back unchanged, a closure's result is returned, anything else becomes the empty array; only a closure can yield a non-array |
| Values.Elements | src/Traits/Values.php:18-29 | iterating a resolved scalar or null visits nothing |
| Repositories.Repository.constructor | src/Support/Repository.php:13 | a new repository is empty and the next append goes to key 0 |
| Repositories.Repository.OffsetExists | src/Support/Repository.php:21-24 | true exactly when the key is present and its value is not null (`isset`) |
| Repositories.Repository.OffsetGet | src/Support/Repository.php:32-35 | the stored value, or null for an absent key |
| Repositories.Repository.OffsetSet | src/Support/Repository.php:44-51 | a null offset stores at the next free integer key, which was unused, and advances it; any other offset overwrites that key only, and an integer key at or past the next free one moves it past that key |
| Repositories.Repository.OffsetUnset | src/Support/Repository.php:59-62 | removes that key only; the next free key does not go back |
| Repositories.AppendAfterFiveItems | tests/Unit/Support/RepositoryTest.php:40-59 | after five appends, a sixth value lands at key 5; key 0 exists, and after `unset` it reads as null |
| Columns.DefaultId | src/Columns/Column.php:48 | the given id, or else the slug of the label |
| Columns.HasRequiredData | src/Columns/Column.php:59 | the `isset` test of `fromArray`: label and value are present and not null; FromArray fails exactly when it is false |
| Columns.Column.constructor | src/Columns/Column.php:43-49 | label, value and order are stored as given; the id is the given one or the label's slug; the column is not a default field |
| Columns.Column.FromArray | src/Columns/Column.php:57-64 | fails (the RuntimeException) exactly when the label or the value is absent or null; otherwise a new column built from the descriptor, with its order and id, not a default field |
| Columns.Column.SetAsADefaultField | src/Columns/Column.php:71-76 | the flag is set and nothing else changes |
| Columns.Column.IsADefaultField | src/Columns/Column.php:83-86 | returns the flag |
| Columns.Column.GetOrder | src/Columns/Column.php:93-96 | returns the order, possibly null |
| Columns.Column.SetOrder | src/Columns/Column.php:104-109 | the order becomes the index and nothing else changes |
| Columns.Column.GetLabel | src/Columns/Column.php:116-119 | returns the label |
| Columns.Column.GetValue | src/Columns/Column.php:126-129 | returns what the value closure yields |
| Columns.Column.GetId | src/Columns/Column.php:136-139 | returns the id |
| Columns.PriceColumn | tests/Unit/Columns/ColumnTest.php:15-62 | a column made from a label and a value yields the value's text, takes the slug of its label as id, reports a set order, and a descriptor without a label is refused |
| ColumnRepositories.Ids | src/Columns/ColumnRepository.php:71 | the ids of the columns, position by position |
| ColumnRepositories.PlacePosition | src/Columns/ColumnRepository.php:48-54 | where one new column lands: without an order at the end; with one, at the front for an order at or below 0, at the end for one at or past the list's length, and otherwise at the order itself |
| ColumnRepositories.Place | src/Columns/ColumnRepository.php:48-54 | a column without an order is appended; one with an order is inserted at the clamped position with the other columns before and after it unchanged |
| ColumnRepositories.PlaceAll | src/Columns/ColumnRepository.php:45-55 | placing the new columns one at a time grows the list by their number |
| ColumnRepositories.Orders | src/Columns/ColumnRepository.php:48-52 | the order each descriptor carries, position by position |
| ColumnRepositories.CompletePrefix | src/Columns/ColumnRepository.php:45-46 | the number of descriptors `add` gets through: all before the first one without a label or value, which stops the loop |
| ColumnRepositories.RemoveId | src/Columns/ColumnRepository.php:70-75 | an unknown id, or an id whose first match is the first column, leaves the list alone; otherwise the first column with that id is deleted and the rest keep their order |
| ColumnRepositories.HasId | src/Columns/ColumnRepository.php:71 | the condition `remove` searches with, a column whose id is the given one; RemoveIdAt and RemoveIdRemovesUnique state what the search it drives finds |
| ColumnRepositories.RemoveIds | src/Columns/ColumnRepository.php:68-75 | `remove`'s loop as a function: each id in turn against the current list; its properties are RemoveIdsKeepsOrder and RemoveIdsIgnoresUnknown |
| ColumnRepositories.RemoveIdAt | src/Columns/ColumnRepository.php:70-75 | when the first column with the id is at a position other than 0, exactly that column is deleted |
| ColumnRepositories.RemoveAfterFrontInsert | src/Columns/ColumnRepository.php:39-75 | after a column is added at order 0, the former first column sits at position 1 and `remove` deletes it, leaving the new column first; if the new column has the same id, it is the one that shields itself and nothing is removed |
| ColumnRepositories.PlaceKeepsOthers | src/Columns/ColumnRepository.php:48-54 | placing a column keeps the others in their relative order |
| ColumnRepositories.PlaceAddsOne | src/Columns/ColumnRepository.php:48-54 | placing a column adds exactly that column to the list's contents |
| ColumnRepositories.OrderedFromEachSnoc | src/Columns/ColumnRepository.php:46-48 | a column built from the next descriptor, carrying its order and not a default field, extends the columns built so far |
| ColumnRepositories.PlaceAllKeepsExisting | src/Columns/ColumnRepository.php:45-55 | `add` never drops or reorders the columns already there |
| ColumnRepositories.PlaceAllContents | src/Columns/ColumnRepository.php:45-55 | after `add` the list holds exactly the old columns plus the new ones |
| ColumnRepositories.PlaceAllWithoutOrdersAppends | src/Columns/ColumnRepository.php:52-54 | columns without an order are appended in the order given |
| ColumnRepositories.PlaceAllAtFront | tests/Unit/Columns/ColumnRepositoryTest.php:59-81 | columns given the orders 0, 1, 2, ... become the first columns, in that order, ahead of the old ones |
| ColumnRepositories.RemoveIdDeletesAtMostOne | src/Columns/ColumnRepository.php:70-75 | one step of `remove` either changes nothing or deletes exactly one column, keeping the order of the rest |
| ColumnRepositories.RemoveIdsKeepsOrder | src/Columns/ColumnRepository.php:66-78 | `remove` keeps the surviving columns in their order and never removes the first column |
| ColumnRepositories.RemoveIdsIgnoresUnknown | src/Columns/ColumnRepository.php:66-78 | ids that name no column change nothing |
| ColumnRepositories.RemoveIdRemovesUnique | src/Columns/ColumnRepository.php:70-75 | with unique ids, removing an id that is not the first column's leaves no column with it and shortens the list by one exactly when it was there |
| ColumnRepositories.ColumnRepository.constructor | src/Columns/ColumnRepository.php:16-19 | a new repository holds the columns `cb`, `title`, `author` and `date`, in that order, with their headings, no value and no order, each marked as a default field |
| ColumnRepositories.ColumnRepository.GetDefaultColumns | src/Columns/ColumnRepository.php:100-112 | one new column per (id, label) pair of `DefaultColumns` (`cb`, `title`, `author`, `date` with their headings), in order, with no value and no order, marked as a default field |
| ColumnRepositories.ColumnRepository.All | src/Columns/ColumnRepository.php:26-29 | returns the current list |
| ColumnRepositories.ColumnRepository.Add | src/Columns/ColumnRepository.php:37-58 | the resolved batch's descriptors before the first incomplete one become columns built from them, each with its descriptor's order and not a default field, and the list becomes the old list with each placed by its order in turn; the outcome reports the missing-data exception exactly when an incomplete descriptor stopped the loop |
| ColumnRepositories.ColumnRepository.AddColumnData | src/Columns/ColumnRepository.php:46-54 | one pass of `add`'s loop: a descriptor missing its label or value is refused exactly at the first incomplete one and nothing changes; otherwise a new column built from it, with its order, is placed after the ones before it |
| ColumnRepositories.ColumnRepository.PlaceNext | src/Columns/ColumnRepository.php:48-54 | placing the n-th column extends the placement of the first n by one step and keeps every built column's order and flag |
| ColumnRepositories.ColumnRepository.PlaceColumn | src/Columns/ColumnRepository.php:48-54 | the list becomes the old list with the column placed by its order |
| ColumnRepositories.ColumnRepository.Remove | src/Columns/ColumnRepository.php:66-78 | the list becomes the old list with each resolved id removed in turn |
| ColumnRepositories.ColumnRepository.Reorder | src/Columns/ColumnRepository.php:86-91 | the list is unchanged |
| ColumnRepositories.RemoveTitle | tests/Unit/Columns/ColumnRepositoryTest.php:162-170 | removing `title` from the default list leaves `cb`, `author` and `date` |
| ColumnRepositories.RemoveDate | tests/Unit/Columns/ColumnRepositoryTest.php:162-170 | removing `date` from `cb`, `author`, `date` leaves `cb` and `author` |
| ColumnRepositories.RemoveTitleAndDate | tests/Unit/Columns/ColumnRepositoryTest.php:162-170 | removing `title` then `date` from the default list leaves `cb` and `author` |
| ColumnRepositories.RemoveFromDefaults | tests/Unit/Columns/ColumnRepositoryTest.php:152-195 | asking a new repository to remove `cb` changes nothing; removing `title` and `date` leaves `cb` and `author` |
| ColumnRepositories.AddInFront | tests/Unit/Columns/ColumnRepositoryTest.php:59-81 | two descriptors with the orders 0 and 1 become the first and second columns, and the list grows to six |
| OrderedMaps.Keys | src/Posty.php:155 | `array_keys`: the keys in order |
| OrderedMaps.IndexOf | src/Posty.php:115 | the position of a key, or None exactly when it is absent |
| OrderedMaps.Get | src/Posty.php:148-159 | the read `$map[$k]`, the observer the map lemmas are stated with: the value under a key, or None exactly when it is absent |
| OrderedMaps.Put | src/Posty.php:179 | afterwards the key reads the new value and every other key reads as before; an existing key keeps its place and a new one is appended |
| OrderedMaps.Unset | src/Posty.php:115 | an absent key changes nothing; otherwise that entry is cut out and the rest keep their order |
| OrderedMaps.UnsetRemovesKey | src/Posty.php:115 | after `unset` the key is absent |
| OrderedMaps.UnsetKeepsOthers | src/Posty.php:115 | after `unset` every other key reads as before |
| OrderedMaps.Fresh | src/Posty.php:86 | the keys of the second list that are not in the first |
| OrderedMaps.Merge | src/Posty.php:86 | `array_merge` on string keys as a function: the second array's entries written one at a time into the first; specified by MergeGet and MergeKeys |
| OrderedMaps.Dedup | src/Posty.php:151 | the same elements as the input, and no element twice |
| OrderedMaps.MergeGet | src/Posty.php:86 | in `array_merge`, a key of the second array takes its value from it, and any other key keeps the first array's value |
| OrderedMaps.MergeKeys | src/Posty.php:86 | in `array_merge`, the first array's keys keep their places and the second array's new keys follow, in its order |
| ColumnFilters.FlipKeys | src/Posty.php:151 | the keys of `array_flip` are the list's distinct elements, each at its first occurrence |
| ColumnFilters.FlipAbsent | src/Posty.php:151 | an unlisted key is absent from `array_flip`'s result |
| ColumnFilters.FlipLast | src/Posty.php:151 | a listed key maps to the index of its last occurrence |
| ColumnFilters.FlipSnocGet | src/Posty.php:151 | the list's last key reads as its own index in `array_flip`, and every other key reads as in the flip of the list without it |
| ColumnFilters.FlipLastStep | src/Posty.php:151 | a key whose last occurrence comes before the list's last element reads as in the flip of the shorter list, where that occurrence is still the last |
| ColumnFilters.Flip | src/Posty.php:151 | `array_flip` of a key list as a function; specified by FlipKeys, FlipAbsent and FlipLast |
| ColumnFilters.ReorderByList | src/Posty.php:150-152 | the `reorderColumns` filter body for a list: `array_merge` of the flipped list and the columns; specified by ReorderByListSpec and ReorderByPermutation |
| ColumnFilters.ReorderByListSpec | src/Posty.php:150-152 | listed keys come first, in the list's order, then the remaining columns in their old order; existing columns keep their headings, and a listed key that was not a column keeps its list index as value |
| ColumnFilters.ReorderByPermutation | src/Posty.php:150-152 | a list naming every column exactly once puts the columns in exactly that order and changes no heading |
| ColumnFilters.ReorderColumns | src/Posty.php:148-159 | a list reorders by the list, a closure reorders by what it returns for the current keys, anything else leaves the columns as they were |
| ColumnFilters.SpliceOffset | src/Posty.php:199-200 | an offset within the list is used as is, a negative one counts from the end, one past the end gives the end and one before the start gives the start, so the result is always within the list |
| ColumnFilters.Search | src/Posty.php:198 | `array_search` strict: the first position holding the key, or false exactly when it is absent |
| ColumnFilters.TakenIndex | src/Posty.php:198-199 | the key's first position; a missing key, read as offset 0, takes the first element |
| ColumnFilters.MoveKey | src/Posty.php:197-202 | the closure keeps the number of keys |
| ColumnFilters.MoveKeyPlaces | src/Posty.php:197-202 | the taken key lands at the splice offset of the order in the shortened list, and the other keys keep their relative order |
| ColumnFilters.MoveKeyPermutes | src/Posty.php:197-202 | the closure only rearranges the keys |
| ColumnFilters.MovedOnePermutes | src/Posty.php:199-200 | taking one key out and splicing it back in elsewhere, with the others in order, only rearranges the keys |
| ColumnFilters.MoveColumn | src/Posty.php:197-202 | the closure `addColumn` registers computes MoveKey for any key list |
| ColumnFilters.Apply | src/Posty.php:112-181 | a remove filter unsets its key, a reorder filter runs the `reorderColumns` body, an add filter sets the heading under its key |
| ColumnFilters.RemoveFilterSpec | src/Posty.php:112-118 | the `removeColumn` filter deletes exactly that key: it is gone, the other entries keep their order and values, and an absent key changes nothing |
| ColumnFilters.MoveFilterSpec | src/Posty.php:196-203 | the reorder filter of `addColumn` rearranges the keys by MoveKey and changes no heading |
| ColumnFilters.AddThenMove | src/Posty.php:178-203 | the new heading is set, then the keys are rearranged by MoveKey, and every heading stays as set |
| ColumnFilters.ApplyAll | src/Posty.php:112-203 | the filters of one hook run in the order they were added, each on the previous one's result; specified by ApplyAllSnoc and used by RemoveFiltersSpec and AddColumnFiltersSpec |
| ColumnFilters.ApplyAllSnoc | src/Posty.php:112-203 | one more filter runs on the result of those before it |
| PostTypes.DefaultLabels | src/Posty.php:231-248 | the thirteen WordPress label keys, in order |
| PostTypes.DefaultLabelsSingular | src/Posty.php:235-239 | `singular_name` is the singular name, and `add_new_item`, `edit_item` and `new_item` are "Add New ", "Edit " and "New " followed by it |
| PostTypes.DefaultLabelsPlural | src/Posty.php:233-246 | `name` and `menu_name` are the plural name, and `all_items`, `view_item` and `search_items` are "All ", "View " and "Search " followed by it |
| PostTypes.DefaultLabelsNotFound | src/Posty.php:243-244 | `not_found` and `not_found_in_trash` are "No " and the lower-case plural name, followed by " found" and " found in Trash" |
| PostTypes.DefaultLabelsFixed | src/Posty.php:236-245 | `add_new` is "Add New" and `parent_item_colon` is empty, whatever the names |
| PostTypes.Texts | src/Posty.php:258 | the labels as a nested argument array: the same keys, in order, each value the label's string |
| PostTypes.TextsGet | src/Posty.php:258 | a key reads as the label's string in the nested array, and is absent there exactly when it is not a label |
| PostTypes.DefaultArguments | src/Posty.php:255-264 | the argument keys in order; `labels` is the current labels as a nested array of strings, `public` and `has_archive` are true, `rewrite` is a nested array whose `slug` is the slug of the plural name, and `supports` lists the six features |
| PostTypes.OverrideDefaults | src/Posty.php:84-102 | a given key overrides the default, other defaults stay, and new keys follow the default ones |
| PostTypes.ShallowOverride | src/Posty.php:97-102 | `setArguments` replaces a nested default whole: a given `rewrite` without a `slug` drops the default slug, an integer argument is taken as given, and `public` stays true |
| PostTypes.AddColumnFilters | src/Posty.php:178-203 | `addColumn` adds its heading filter and, only for a truthy order, the move filter after it |
| PostTypes.AddColumnFiltersSpec | src/Posty.php:173-206 | after `addColumn`'s filters the heading is set; without a truthy order the map is just the heading set, with one the keys are rearranged by MoveKey |
| PostTypes.RemoveFilters | src/Posty.php:129-136 | one remove filter per key, in order |
| PostTypes.RemoveFiltersSpec | src/Posty.php:129-136 | after `removeColumns`' filters none of the listed keys is left and every other column keeps its heading |
| PostTypes.CompleteSpecs | src/Posty.php:216-219 | the number of entries before the first one without a name or a callback, where the loop breaks |
| PostTypes.AddColumnsActions | src/Posty.php:184-193 | one cell action per added column, keyed by the slug of its name, with its callback |
| PostTypes.Render | src/Posty.php:186-190 | a cell of the action's own column shows the callback's result for the post; any other column shows nothing |
| PostTypes.Truthy | src/Posty.php:196 | `if($order)` on an `int` or null: null and 0 are false; used by AddColumnFilters |
| PostTypes.IsComplete | src/Posty.php:217 | the `isset` test of `addColumns`: a name and a callback are present; CompleteSpecs states where the loop breaks by it |
| PostTypes.AddColumnsFilters | src/Posty.php:216-221 | the filters of a run of `addColumn` calls, each call's after those before it; AddColumns states its log with it |
| PostTypes.Posty.constructor | src/Posty.php:42-49 | the names are stored, the labels are the defaults, the arguments are the defaults built with those labels, and no filter or action is installed |
| PostTypes.Posty.SetLabels | src/Posty.php:84-89 | the labels become the default labels merged with the given ones |
| PostTypes.Posty.SetArguments | src/Posty.php:97-102 | the arguments become the defaults, built from the current labels, merged with the given ones |
| PostTypes.Posty.RemoveColumn | src/Posty.php:110-121 | one remove filter for that key is added |
| PostTypes.Posty.RemoveColumns | src/Posty.php:129-136 | one remove filter per key is added, in order |
| PostTypes.Posty.ReorderColumns | src/Posty.php:144-163 | one reorder filter with the given list or closure is added |
| PostTypes.Posty.AddColumn | src/Posty.php:173-206 | the heading filter, then for a truthy order the move filter, and one cell action under the slug of the name |
| PostTypes.Posty.AddColumns | src/Posty.php:214-224 | the filters and actions of `addColumn` for each entry before the first incomplete one, in order |
| PostTypes.RenamedLabel | src/Posty.php:84-89 | a `name` given to `setLabels` overrides the default `name` label |
| PostTypes.RelabelKeepsArguments | src/Posty.php:84-89 | after `setLabels` the labels carry the new name, but the `labels` argument still holds all the default labels: `setLabels` does not touch the arguments |
| PostTypes.Relabelled | src/Posty.php:42-89 | a post type built and then given a new `name` label holds the default labels merged with it, and keeps its plural name and slug function |
| PostTypes.RenameReachesArguments | src/Posty.php:97-102 | arguments rebuilt from labels with a new `name` carry that name in the `labels` argument, unless the given arguments bring their own `labels`, which then win |
| PostTypes.RelabelThenRebuild | src/Posty.php:84-102 | `setArguments` after `setLabels` brings the new name into the `labels` argument, unless the given arguments set `labels`, in which case that value is kept as given |

## Left out

- Registering with WordPress is left out: `make`, `register`, `register_post_type` and the `init` action. They only hand the model's state to the host.
- `add_filter`, `add_action` and `echo` are logs and a `Render` function. Hook priorities and the host's dispatch are not modelled.
- `sanitize_title` and `strtolower` are parameters, so the model says nothing about what they compute.
- Value closures and `addColumn` callbacks are pure functions here. Side effects of calling them are not modelled.
- Every method returns `$this` for chaining; the model's methods return nothing for that.
- PHP's type errors are not modelled. Examples: a closure given to `reorderColumns` that returns a non-list, `array_flip` on values that are not keys, a non-array element in `add`'s batch, a non-string id in `remove`.
- PHP's key coercion (`"5"` read as `5`) is not modelled. Ordered maps have string keys; `Repository` keys are integers or strings.
- `Repository` keeps its items in a map, so the insertion order of keys is not modelled; no operation of the class depends on it. The next free key follows PHP before 8.3, where a negative key does not move it.
- `ColumnRepository`'s integer keys are positions. The gaps `unset` leaves in the keys are not modelled; they do not change which column `add`, `remove` or `reorder` reaches. `all()` and `offsetGet` read by key, so in PHP they see those gaps; in the model, positions are renumbered.
- An undefined `order` entry in `addColumns` is read as null, as PHP does, and the notice PHP emits is not modelled.
- ColumnRepositories.ColumnRepository.Add: does not state that the created columns are newly allocated. `FromArray` states it for each column it builds, but carrying it through the loop as an invariant is beyond the solver's resource limit. The columns' label, value, id, order and default flag are stated.
- ColumnRepositories.ColumnRepository.Add: an exception from `fromArray` is the `MissingData` outcome; the columns added before it stay, as in PHP.
- Columns.Column.GetValue: requires a value closure; calling a missing closure is a PHP error that the model does not reach.
- Values.Elements: a closure that returns an object is read as yielding nothing. PHP's `foreach` iterates a Traversable (an `ArrayIterator`, a generator) through its iterator and any other object through its public properties, so in PHP `remove` or `add` given a closure that returns such an object acts on what it yields. The model has no object values; `GetValueFromArrayOrClosure` resolves every non-array result to `NotAnArray`.
- Repositories.Repository.OffsetSet: requires the class invariant `Valid()`, which the constructor establishes and every method keeps.
- Repositories.Repository.OffsetSet: keys are unbounded integers. PHP's next free key stops at `PHP_INT_MAX` (2^63 - 1), and `[] =` then throws an `Error`; the model does not reproduce that.
- PostTypes.Posty.SetArguments: an argument value cannot be a callable or an object (such as a `register_meta_box_cb` callback), and PHP floats are modelled as exact reals; `array_merge` only copies such values, so no other behaviour depends on them.

=== FILE: arr.dfy ===
/** The sequence helpers of `Posty\Support\Arr`: first-match search,
    first-match index and positional insert. */
module Arr {

  import opened Options

  /** Position of the first element of `s` that satisfies `cond`, or None
      when no element does. This is the value `getIndexWhere` computes. */
  function FirstIndex<T>(cond: T -> bool, s: seq<T>): (r: Option<nat>)
    ensures r.Some? ==> r.value < |s| && cond(s[r.value])
    ensures r.Some? ==> forall j | 0 <= j < r.value :: !cond(s[j])
    ensures r.None? <==> forall j | 0 <= j < |s| :: !cond(s[j])
    decreases |s|
  {
    if s == [] then None
    else if cond(s[0]) then Some(0)
    else
      match FirstIndex(cond, s[1..])
      case None => None
      case Some(i) => Some(i + 1)
  }

  /** `getIndexWhere`: scans in order and stops at the first match. A match
      at index 0 yields Some(0), which is distinct from None. */
  method GetIndexWhere<T>(needle: T -> bool, haystack: seq<T>) returns (r: Option<nat>)
    ensures r == FirstIndex(needle, haystack)
    ensures r.Some? ==> r.value < |haystack| && needle(haystack[r.value])
    ensures r.None? ==> forall j | 0 <= j < |haystack| :: !needle(haystack[j])
  {
    for index := 0 to |haystack|
      invariant forall j | 0 <= j < index :: !needle(haystack[j])
    {
      if needle(haystack[index]) {
        return Some(index);
      }
    }
    return None;
  }

  /** `findWhere`: the first element that satisfies `condition`, or None. */
  method FindWhere<T>(condition: T -> bool, s: seq<T>) returns (r: Option<T>)
    ensures r.None? <==> forall j | 0 <= j < |s| :: !condition(s[j])
    ensures r.Some? ==> FirstIndex(condition, s).Some? && r.value == s[FirstIndex(condition, s).value]
    ensures r.Some? ==> condition(r.value)
  {
    for i := 0 to |s|
      invariant forall j | 0 <= j < i :: !condition(s[j])
    {
      if condition(s[i]) {
        return Some(s[i]);
      }
    }
    return None;
  }

  /** The position at which `insert` puts its item into a sequence of
      length n: the index clamped to [0, n]. */
  function InsertPosition(index: int, n: nat): (p: nat)
    ensures p <= n
    ensures index <= 0 ==> p == 0
    ensures index >= n ==> p == n
    ensures 0 <= index <= n ==> p == index
  {
    if index <= 0 then 0 else if index >= n then n else index
  }

  /** `insert`: puts `item` at `index` clamped to [0, |s|]; earlier elements
      keep their positions, later ones shift right by one, and deleting the
      inserted item gives back `s`. */
  function Insert<T>(item: T, index: int, s: seq<T>): (r: seq<T>)
    ensures |r| == |s| + 1
    ensures index <= 0 ==> r == [item] + s
    ensures index >= |s| ==> r == s + [item]
    ensures var p := InsertPosition(index, |s|);
      && r[p] == item
      && r[..p] == s[..p]
      && r[p + 1..] == s[p..]
      && r[..p] + r[p + 1..] == s
  {
    if 0 >= index then
      [item] + s
    else if index >= |s| then
      s + [item]
    else
      s[..index] + [item] + s[index..]
  }
}

=== FILE: column.dfy ===
/** `Posty\Columns\Column`: one column of a post type's admin list table. */
module Columns {

  // `label` is a keyword in Dafny, so the source's label is called `heading` here.

  import opened Options

  /** A column's value closure: called with no arguments, yields the cell text. */
  type Producer = () -> string

  /** The associative array given to `fromArray`. An absent key and a null
      value are both None. */
  datatype Descriptor = Descriptor(
    heading: Option<string>,
    value: Option<Producer>,
    order: Option<int>,
    id: Option<string>)

  /** `isset($column['label'], $column['value'])`. */
  predicate HasRequiredData(d: Descriptor)
  {
    d.heading.Some? && d.value.Some?
  }

  /** The id rule of the constructor: the given id, else the slug of the label. */
  function DefaultId(heading: string, id: Option<string>, slug: string -> string): (r: string)
    ensures id.Some? ==> r == id.value
    ensures id.None? ==> r == slug(heading)
  {
    match id
    case Some(given) => given
    case None => slug(heading)
  }

  class Column {
    const heading: string
    const value: Option<Producer>
    var order: Option<int>
    const id: string
    var isADefaultField: bool

    /** The fixed fields of this column are those `fromArray` builds from `d`. */
    ghost predicate MadeFrom(d: Descriptor, slug: string -> string)
    {
      && d.heading == Some(heading)
      && d.value == value
      && id == DefaultId(heading, d.id, slug)
    }

    /** This column is what `fromArray` builds from `d`: its fixed fields,
        the order it was given and no default flag. */
    ghost predicate BuiltFrom(d: Descriptor, slug: string -> string)
      reads this
    {
      MadeFrom(d, slug) && d.order == order && !isADefaultField
    }

    /** A new column is not a default field; its id falls back to the slug
        of its heading. */
    constructor (heading: string, value: Option<Producer>, order: Option<int>, id: Option<string>, slug: string -> string)
      ensures this.heading == heading && this.value == value && this.order == order
      ensures id.Some? ==> this.id == id.value
      ensures id.None? ==> this.id == slug(heading)
      ensures !isADefaultField
    {
      this.heading := heading;
      this.value := value;
      this.order := order;
      this.id := DefaultId(heading, id, slug);
      isADefaultField := false;
    }

    /** `fromArray`: None stands for the RuntimeException raised when the
        label or the value is absent or null. */
    static method FromArray(column: Descriptor, slug: string -> string) returns (r: Option<Column>)
      ensures r.None? <==> !HasRequiredData(column)
      ensures r.Some? ==> fresh(r.value) && r.value.BuiltFrom(column, slug)
    {
      if !HasRequiredData(column) {
        return None;
      }
      var c := new Column(column.heading.value, column.value, column.order, column.id, slug);
      return Some(c);
    }

    /** `setAsADefaultField`: only the flag changes. */
    method SetAsADefaultField()
      modifies this`isADefaultField
      ensures isADefaultField
    {
      isADefaultField := true;
    }

    method IsADefaultField() returns (r: bool)
      ensures r == isADefaultField
    {
      r := isADefaultField;
    }

    method GetOrder() returns (r: Option<int>)
      ensures r == order
    {
      r := order;
    }

    /** `setOrder`: only the order changes. */
    method SetOrder(index: int)
      modifies this`order
      ensures order == Some(index)
    {
      order := Some(index);
    }

    method GetLabel() returns (r: string)
      ensures r == heading
    {
      r := heading;
    }

    /** `getValue`: calls the producer afresh; calling it on a column without
        one is a PHP Error, hence the precondition. */
    method GetValue() returns (r: string)
      requires value.Some?
      ensures r == value.value()
    {
      r := value.value();
    }

    method GetId() returns (r: string)
      ensures r == id
    {
      r := id;
    }
  }

  /** A descriptor without an order or an id: the column's id is the slug
      of its label and its value is what the producer yields; a descriptor
      without a label is refused. */
  method PriceColumn(slug: string -> string)
    returns (v: string, id: string, o: Option<int>, l: string, missing: Option<Column>)
    ensures v == "£900" && id == slug("Price") && o == Some(5) && l == "Price"
    ensures missing.None?
  {
    var d := Descriptor(Some("Price"), Some(() => "£900"), None, None);
    var c := Column.FromArray(d, slug);
    var col := c.value;
    v := col.GetValue();
    id := col.GetId();
    col.SetOrder(5);
    o := col.GetOrder();
    l := col.GetLabel();
    missing := Column.FromArray(Descriptor(None, None, None, None), slug);
  }
}

=== FILE: column_filters.dfy ===
/** The bodies of the filters `Posty` installs on a post type's column
    list: each takes the ordered column map (key => heading) and returns a
    new one. */
module ColumnFilters {

  import opened Options
  import Arr
  import opened OrderedMaps

  /** A value of the column map: a heading, or the list index `array_flip`
      leaves behind for a listed key that no column has. */
  datatype Cell = Heading(text: string) | ListIndex(index: nat)

  type ColumnMap = OrderedMap<Cell>

  /** `array_flip` of a list of keys: each key maps to its index. For a key
      listed twice the last index wins, at the place of the first. */
  function Flip(keys: seq<string>): (r: ColumnMap)
    decreases |keys|
  {
    if keys == [] then []
    else Put(Flip(keys[..|keys| - 1]), keys[|keys| - 1], ListIndex(|keys| - 1))
  }

  lemma {:induction false} FlipKeys(keys: seq<string>)
    ensures Keys(Flip(keys)) == Dedup(keys)
    decreases |keys|
  {
    if keys != [] {
      FlipKeys(keys[..|keys| - 1]);
    }
  }

  /** An unlisted key is absent from the flipped list. */
  lemma FlipAbsent(keys: seq<string>, k: string)
    requires k !in keys
    ensures Get(Flip(keys), k) == None
  {
    FlipKeys(keys);
  }

  /** A listed key maps to the index of its last occurrence. */
  lemma {:induction false} FlipLast(keys: seq<string>, k: string, i: nat)
    requires i < |keys| && keys[i] == k && k !in keys[i + 1..]
    ensures Get(Flip(keys), k) == Some(ListIndex(i))
    decreases |keys|
  {
    if i < |keys| - 1 {
      FlipLastStep(keys, k, i);
      FlipLast(keys[..|keys| - 1], k, i);
    } else {
      FlipSnocGet(keys, k);
    }
  }

  /** A key whose last occurrence is not the list's last element reads in
      the flip as in the flip of the list without that element, where it
      still occurs last at the same index. */
  lemma FlipLastStep(keys: seq<string>, k: string, i: nat)
    requires i < |keys| - 1 && keys[i] == k && k !in keys[i + 1..]
    ensures Get(Flip(keys), k) == Get(Flip(keys[..|keys| - 1]), k)
    ensures keys[..|keys| - 1][i] == k && k !in keys[..|keys| - 1][i + 1..]
  {
    var n := |keys| - 1;
    assert keys[n] != k by {
      assert keys[n] == keys[i + 1..][n - i - 1];
    }
    assert keys[..n][i + 1..] == keys[i + 1..n];
    FlipSnocGet(keys, k);
  }

  /** The last key of the list is written last: it reads as its own index,
      and every other key reads as in the flip of the list before it. */
  lemma FlipSnocGet(keys: seq<string>, k: string)
    requires keys != []
    ensures keys[|keys| - 1] == k ==> Get(Flip(keys), k) == Some(ListIndex(|keys| - 1))
    ensures keys[|keys| - 1] != k ==> Get(Flip(keys), k) == Get(Flip(keys[..|keys| - 1]), k)
  {
  }

  /** The `reorderColumns` filter for a key list: `array_merge` of the
      flipped list and the existing columns. */
  function ReorderByList(keys: seq<string>, m: ColumnMap): (r: ColumnMap)
  {
    Merge(Flip(keys), m)
  }

  /** Listed keys come first, in the list's order; the other columns follow
      in their own order. Existing columns keep their headings; a listed
      key with no column is left holding its list index. */
  lemma ReorderByListSpec(keys: seq<string>, m: ColumnMap, k: string)
    ensures Keys(ReorderByList(keys, m)) == Dedup(keys) + Fresh(Keys(m), Dedup(keys))
    ensures k in Keys(m) ==> Get(ReorderByList(keys, m), k) == Get(m, k)
    ensures k !in Keys(m) ==> Get(ReorderByList(keys, m), k) == Get(Flip(keys), k)
  {
    MergeKeys(Flip(keys), m);
    FlipKeys(keys);
    MergeGet(Flip(keys), m, k);
  }

  lemma {:induction false} DistinctCount(s: seq<string>)
    ensures Distinct(s) <==> forall x | x in s :: multiset(s)[x] == 1
    decreases |s|
  {
    if s != [] {
      var init := s[..|s| - 1];
      var last := s[|s| - 1];
      assert s == init + [last];
      DistinctCount(init);
      if Distinct(s) {
        assert Distinct(init);
        assert last !in init;
      }
      if forall x | x in s :: multiset(s)[x] == 1 {
        assert multiset(s)[last] == 1;
        assert forall x | x in init :: x in s;
        assert last !in init;
      }
    }
  }

  lemma {:induction false} DedupDistinct(s: seq<string>)
    requires Distinct(s)
    ensures Dedup(s) == s
    decreases |s|
  {
    if s != [] {
      var init := s[..|s| - 1];
      DedupDistinct(init);
      assert s[|s| - 1] !in init;
    }
  }

  /** A permutation of a list without repeats has no repeats and the same
      members. */
  lemma PermutationOfDistinct(keys: seq<string>, ks: seq<string>)
    requires multiset(keys) == multiset(ks) && Distinct(ks)
    ensures Distinct(keys)
    ensures forall x :: x in keys <==> x in ks
  {
    DistinctCount(ks);
    DistinctCount(keys);
    forall x
      ensures x in keys <==> x in ks
    {
      assert x in keys <==> x in multiset(keys);
      assert x in ks <==> x in multiset(ks);
    }
  }

  lemma {:induction false} FreshOfCovered(ks: seq<string>, existing: seq<string>)
    requires forall x | x in ks :: x in existing
    ensures Fresh(ks, existing) == []
    decreases |ks|
  {
    if ks != [] {
      FreshOfCovered(ks[..|ks| - 1], existing);
      assert ks[|ks| - 1] in ks;
    }
  }

  /** A list naming every column exactly once puts the columns in that
      order and changes no heading. */
  lemma ReorderByPermutation(keys: seq<string>, m: ColumnMap, k: string)
    requires multiset(keys) == multiset(Keys(m))
    ensures Keys(ReorderByList(keys, m)) == keys
    ensures Get(ReorderByList(keys, m), k) == Get(m, k)
  {
    PermutationOfDistinct(keys, Keys(m));
    DedupDistinct(keys);
    FreshOfCovered(Keys(m), keys);
    ReorderByListSpec(keys, m, k);
    if k !in Keys(m) {
      FlipAbsent(keys, k);
    }
  }

  /** What `reorderColumns` is given: a key list, a closure that receives the
      existing keys and returns one, or anything else. */
  datatype ColumnOrder =
    | OrderList(keys: seq<string>)
    | OrderClosure(call: seq<string> -> seq<string>)
    | OtherOrder

  /** The `reorderColumns` filter. */
  function ReorderColumns(order: ColumnOrder, m: ColumnMap): (r: ColumnMap)
    ensures order.OtherOrder? ==> r == m
    ensures order.OrderList? ==> r == ReorderByList(order.keys, m)
    ensures order.OrderClosure? ==> r == ReorderByList(order.call(Keys(m)), m)
  {
    match order
    case OrderList(keys) => ReorderByList(keys, m)
    case OrderClosure(call) => ReorderByList(call(Keys(m)), m)
    case OtherOrder => m
  }

  /** Where `array_splice` starts for an offset into a list of length n:
      a negative offset counts from the end, and both ends clamp. */
  function SpliceOffset(offset: int, n: nat): (p: nat)
    ensures p <= n
    ensures 0 <= offset <= n ==> p == offset
    ensures offset < 0 && n + offset >= 0 ==> p == n + offset
    ensures offset > n ==> p == n
    ensures n + offset < 0 ==> p == 0
  {
    if offset < 0 then (if -offset > n then 0 else n + offset)
    else if offset > n then n
    else offset
  }

  /** `array_search($key, $keys, true)`. */
  function Search(key: string, keys: seq<string>): (r: Option<nat>)
    ensures r.None? <==> key !in keys
    ensures r.Some? ==> r.value < |keys| && keys[r.value] == key && key !in keys[..r.value]
  {
    Arr.FirstIndex((x: string) => x == key, keys)
  }

  /** Which key the closure of `addColumn` takes out: the first one equal to
      the label, or (`array_search` gave false, which `array_splice` reads
      as 0) the first key. */
  function TakenIndex(key: string, keys: seq<string>): (i: nat)
    ensures keys != [] ==> i < |keys|
    ensures key in keys ==> keys[i] == key && key !in keys[..i]
    ensures key !in keys ==> i == 0
  {
    match Search(key, keys)
    case Some(i) => i
    case None => 0
  }

  /** The closure `addColumn` passes to `reorderColumns`: take the label's
      key out with `array_splice` and put it back at `order`, counted in the
      shortened list. */
  function MoveKey(key: string, order: int, keys: seq<string>): (r: seq<string>)
    ensures |r| == |keys|
  {
    var start := SpliceOffset(TakenIndex(key, keys), |keys|);
    var end := if start < |keys| then start + 1 else start;
    var out := keys[start..end];
    var rest := keys[..start] + keys[end..];
    var p := SpliceOffset(order, |rest|);
    rest[..p] + out + rest[p..]
  }

  /** The taken key lands at `order` (clamped, counted from the end when
      negative) and the other keys keep their relative order. With the label
      absent it is the first key that moves. */
  lemma MoveKeyPlaces(key: string, order: int, keys: seq<string>)
    ensures keys == [] ==> MoveKey(key, order, keys) == []
    ensures keys != [] ==>
      var i := TakenIndex(key, keys);
      var p := SpliceOffset(order, |keys| - 1);
      var r := MoveKey(key, order, keys);
      && i < |keys|
      && r[p] == keys[i]
      && r[..p] + r[p + 1..] == keys[..i] + keys[i + 1..]
  {
    if keys != [] {
      var i := TakenIndex(key, keys);
      var rest := keys[..i] + keys[i + 1..];
      assert |rest| == |keys| - 1;
      var p := SpliceOffset(order, |rest|);
      var r := MoveKey(key, order, keys);
      assert SpliceOffset(i, |keys|) == i;
      assert keys[i..i + 1] == [keys[i]];
      assert r == rest[..p] + [keys[i]] + rest[p..];
      assert r[..p] == rest[..p];
      assert r[p + 1..] == rest[p..];
    }
  }

  lemma MultisetWithout(s: seq<string>, j: nat)
    requires j < |s|
    ensures multiset(s) == multiset(s[..j] + s[j + 1..]) + multiset{s[j]}
  {
    assert s == s[..j] + [s[j]] + s[j + 1..];
  }

  /** The closure only rearranges the keys. */
  lemma MoveKeyPermutes(key: string, order: int, keys: seq<string>)
    ensures multiset(MoveKey(key, order, keys)) == multiset(keys)
  {
    if keys != [] {
      var i := TakenIndex(key, keys);
      var p := SpliceOffset(order, |keys| - 1);
      MoveKeyPlaces(key, order, keys);
      MovedOnePermutes(keys, MoveKey(key, order, keys), i, p);
    }
  }

  /** A list that holds keys[i] at p and the other keys, in order, around
      it is a rearrangement of keys. */
  lemma MovedOnePermutes(keys: seq<string>, r: seq<string>, i: nat, p: nat)
    requires i < |keys| && p < |r|
    requires r[p] == keys[i] && r[..p] + r[p + 1..] == keys[..i] + keys[i + 1..]
    ensures multiset(r) == multiset(keys)
  {
    MultisetWithout(r, p);
    MultisetWithout(keys, i);
  }

  /** The closure registered by `addColumn` for a label and an order. */
  function MoveColumn(key: string, order: int): (f: seq<string> -> seq<string>)
    ensures forall keys :: f(keys) == MoveKey(key, order, keys)
  {
    (keys: seq<string>) => MoveKey(key, order, keys)
  }

  /** A filter `Posty` registers on the column list. */
  datatype Filter =
    | RemoveFilter(key: string)
    | ReorderFilter(order: ColumnOrder)
    | AddFilter(key: string, name: string)

  /** One filter's body applied to the column map. */
  function Apply(f: Filter, m: ColumnMap): (r: ColumnMap)
    ensures f.RemoveFilter? ==> r == Unset(m, f.key)
    ensures f.ReorderFilter? ==> r == ReorderColumns(f.order, m)
    ensures f.AddFilter? ==> r == Put(m, f.key, Heading(f.name))
  {
    match f
    case RemoveFilter(key) => Unset(m, key)
    case ReorderFilter(order) => ReorderColumns(order, m)
    case AddFilter(key, name) => Put(m, key, Heading(name))
  }

  /** The filters of one hook, run in the order they were added. */
  function ApplyAll(fs: seq<Filter>, m: ColumnMap): ColumnMap
    decreases |fs|
  {
    if fs == [] then m else Apply(fs[|fs| - 1], ApplyAll(fs[..|fs| - 1], m))
  }

  lemma ApplyAllSnoc(fs: seq<Filter>, f: Filter, m: ColumnMap)
    ensures ApplyAll(fs + [f], m) == Apply(f, ApplyAll(fs, m))
  {
    assert (fs + [f])[..|fs|] == fs;
  }

  /** The `removeColumn` filter deletes exactly that key: the key is gone,
      and the other columns keep their order and headings. */
  lemma RemoveFilterSpec(key: string, m: ColumnMap, k: string)
    ensures key !in Keys(Apply(RemoveFilter(key), m))
    ensures forall i | 0 <= i < |m| && m[i].key == key ::
      Apply(RemoveFilter(key), m) == m[..i] + m[i + 1..]
    ensures key !in Keys(m) ==> Apply(RemoveFilter(key), m) == m
    ensures k != key ==> Get(Apply(RemoveFilter(key), m), k) == Get(m, k)
  {
    UnsetRemovesKey(m, key);
    if k != key {
      UnsetKeepsOthers(m, key, k);
    }
  }

  /** The reorder filter `addColumn` registers moves one key and changes no
      heading. */
  lemma MoveFilterSpec(m: ColumnMap, key: string, order: int, k: string)
    ensures Keys(Apply(ReorderFilter(OrderClosure(MoveColumn(key, order))), m)) == MoveKey(key, order, Keys(m))
    ensures Get(Apply(ReorderFilter(OrderClosure(MoveColumn(key, order))), m), k) == Get(m, k)
  {
    var moved := MoveKey(key, order, Keys(m));
    MoveKeyPermutes(key, order, Keys(m));
    ReorderByPermutation(moved, m, k);
    assert MoveColumn(key, order)(Keys(m)) == moved;
    assert Apply(ReorderFilter(OrderClosure(MoveColumn(key, order))), m) == ReorderByList(moved, m);
  }

  /** `addColumn` with a truthy order: its add filter and then its reorder
      filter leave every heading as the add filter set it and arrange the
      keys as MoveKey does, which (MoveKeyPlaces) puts the new key at
      `order` among the other keys. */
  lemma AddThenMove(m: ColumnMap, key: string, name: string, order: int, k: string)
    ensures var added := Apply(AddFilter(key, name), m);
      var r := ApplyAll([AddFilter(key, name), ReorderFilter(OrderClosure(MoveColumn(key, order)))], m);
      && key in Keys(added)
      && Keys(r) == MoveKey(key, order, Keys(added))
      && Get(r, k) == Get(added, k)
      && Get(r, key) == Some(Heading(name))
  {
    var add := AddFilter(key, name);
    var move := ReorderFilter(OrderClosure(MoveColumn(key, order)));
    var added := Apply(add, m);
    ApplyAllSnoc([], add, m);
    ApplyAllSnoc([add], move, m);
    assert [add] + [move] == [add, move];
    assert ApplyAll([add, move], m) == Apply(move, added);
    MoveFilterSpec(added, key, order, k);
    MoveFilterSpec(added, key, order, key);
  }
}

=== FILE: column_repository.dfy ===
/** `Posty\Columns\ColumnRepository`: the ordered columns of a post type's
    admin list table. */
module ColumnRepositories {

  import opened Options
  import Arr
  import opened Values
  import opened Columns
  import opened Subsequences

  /** The columns WordPress lists for every post type, as (id, label) pairs. */
  const DefaultColumns: seq<(string, string)> := [
    ("cb", "<input type=\"checkbox\" />"),
    ("title", "Title"),
    ("author", "Author"),
    ("date", "Date")
  ]

  /** The ids of a column list, in order. */
  function Ids(s: seq<Column>): (ids: seq<string>)
    ensures |ids| == |s|
    ensures forall i | 0 <= i < |s| :: ids[i] == s[i].id
  {
    seq(|s|, i requires 0 <= i < |s| => s[i].id)
  }

  /** The condition `remove` searches with. */
  function HasId(columnId: string): Column -> bool
  {
    (c: Column) => c.id == columnId
  }

  /** Where one new column lands in a list of length n: at the end without
      an order, otherwise at the order clamped to [0, n]. */
  function PlacePosition(order: Option<int>, n: nat): (p: nat)
    ensures p <= n
    ensures order.None? ==> p == n
    ensures order.Some? && order.value <= 0 ==> p == 0
    ensures order.Some? && 0 <= order.value <= n ==> p == order.value
    ensures order.Some? && order.value >= n ==> p == n
  {
    match order
    case Some(k) => Arr.InsertPosition(k, n)
    case None => n
  }

  /** One column's effect on the list in `add`: with an order it goes through
      `Arr::insert` at that order, without one it is appended. It lands at
      PlacePosition and every other column keeps its relative order. */
  function Place<T>(s: seq<T>, x: T, order: Option<int>): (r: seq<T>)
    ensures order.None? ==> r == s + [x]
    ensures var p := PlacePosition(order, |s|);
      |r| == |s| + 1 && r[p] == x && r[..p] + r[p + 1..] == s
  {
    if order.Some? then Arr.Insert(x, order.value, s) else s + [x]
  }

  /** New columns placed one at a time, each against the list as it stands
      after the previous one. */
  function PlaceAll<T>(s: seq<T>, xs: seq<T>, orders: seq<Option<int>>): (r: seq<T>)
    requires |xs| == |orders|
    ensures |r| == |s| + |xs|
    decreases |xs|
  {
    if xs == [] then s
    else Place(PlaceAll(s, xs[..|xs| - 1], orders[..|xs| - 1]), xs[|xs| - 1], orders[|xs| - 1])
  }

  /** The orders of a list of descriptors. */
  function Orders(ds: seq<Descriptor>): (os: seq<Option<int>>)
    ensures |os| == |ds|
    ensures forall i | 0 <= i < |ds| :: os[i] == ds[i].order
  {
    if ds == [] then [] else Orders(ds[..|ds| - 1]) + [ds[|ds| - 1].order]
  }

  /** How many descriptors of a batch `add` turns into columns: those before
      the first one missing its label or its value. */
  function CompletePrefix(ds: seq<Descriptor>): (n: nat)
    ensures n <= |ds|
    ensures forall j | 0 <= j < n :: HasRequiredData(ds[j])
    ensures n < |ds| ==> !HasRequiredData(ds[n])
    decreases |ds|
  {
    if ds == [] || !HasRequiredData(ds[0]) then 0 else 1 + CompletePrefix(ds[1..])
  }

  /** One id of `remove`: the first column with that id is deleted, unless
      there is none or it is the first column (index 0 is falsy). */
  function RemoveId(s: seq<Column>, columnId: string): (r: seq<Column>)
    ensures columnId !in Ids(s) ==> r == s
    ensures |s| > 0 && s[0].id == columnId ==> r == s
    ensures forall i | 0 < i < |s| && s[i].id == columnId && columnId !in Ids(s[..i]) ::
      r == s[..i] + s[i + 1..]
  {
    match Arr.FirstIndex(HasId(columnId), s)
    case Some(columnIndex) =>
      if columnIndex != 0 then s[..columnIndex] + s[columnIndex + 1..] else s
    case None => s
  }

  lemma PlaceAllSnoc<T>(s: seq<T>, xs: seq<T>, orders: seq<Option<int>>, x: T, order: Option<int>)
    requires |xs| == |orders|
    ensures PlaceAll(s, xs + [x], orders + [order]) == Place(PlaceAll(s, xs, orders), x, order)
  {
    assert (xs + [x])[..|xs|] == xs;
    assert (orders + [order])[..|xs|] == orders;
  }

  /** One iteration of `add`'s loop, in terms of the descriptors. */
  lemma AddStep(s: seq<Column>, created: seq<Column>, batch: seq<Descriptor>, n: nat, c: Column)
    requires n < |batch| && |created| == n
    ensures Place(PlaceAll(s, created, Orders(batch[..n])), c, batch[n].order)
         == PlaceAll(s, created + [c], Orders(batch[..n + 1]))
  {
    PlaceAllSnoc(s, created, Orders(batch[..n]), c, batch[n].order);
    assert batch[..n + 1][..n] == batch[..n];
  }

  /** `remove` of a list of ids: each id in turn against the current list. */
  function RemoveIds(s: seq<Column>, ids: seq<string>): seq<Column>
    decreases |ids|
  {
    if ids == [] then s
    else RemoveId(RemoveIds(s, ids[..|ids| - 1]), ids[|ids| - 1])
  }

  /** Each column of `cs` was made from the descriptor at the same index. */
  ghost predicate MadeFromEach(cs: seq<Column>, ds: seq<Descriptor>, slug: string -> string)
  {
    |cs| <= |ds| && forall k | 0 <= k < |cs| :: cs[k].MadeFrom(ds[k], slug)
  }

  /** Each column of `cs` still carries the order of the descriptor at the
      same index and is not a default field. */
  ghost predicate OrderedFromEach(cs: seq<Column>, ds: seq<Descriptor>)
    reads set c | c in cs
  {
    |cs| <= |ds| && forall k | 0 <= k < |cs| :: cs[k].order == ds[k].order && !cs[k].isADefaultField
  }

  lemma OrderedFromEachSnoc(cs: seq<Column>, ds: seq<Descriptor>, c: Column)
    requires OrderedFromEach(cs, ds) && |cs| < |ds|
    requires c.order == ds[|cs|].order && !c.isADefaultField
    ensures OrderedFromEach(cs + [c], ds)
  {
  }

  lemma MadeFromEachSnoc(cs: seq<Column>, ds: seq<Descriptor>, slug: string -> string, c: Column)
    requires MadeFromEach(cs, ds, slug) && |cs| < |ds| && c.MadeFrom(ds[|cs|], slug)
    ensures MadeFromEach(cs + [c], ds, slug)
  {
  }

  /** Placing one column keeps every other column, in the same relative
      order. */
  lemma PlaceKeepsOthers<T>(s: seq<T>, x: T, order: Option<int>)
    ensures IsSubsequence(s, Place(s, x, order))
  {
    SubsequenceDeleteOne(Place(s, x, order), PlacePosition(order, |s|));
  }

  /** Placing one column adds exactly that column. */
  lemma PlaceAddsOne<T>(s: seq<T>, x: T, order: Option<int>)
    ensures multiset(Place(s, x, order)) == multiset(s) + multiset{x}
  {
    var r := Place(s, x, order);
    var p := PlacePosition(order, |s|);
    assert r == r[..p] + [x] + r[p + 1..];
  }

  /** `add` never drops or reorders the columns already there. */
  lemma {:induction false} PlaceAllKeepsExisting<T>(s: seq<T>, xs: seq<T>, orders: seq<Option<int>>)
    requires |xs| == |orders|
    ensures IsSubsequence(s, PlaceAll(s, xs, orders))
    decreases |xs|
  {
    if xs == [] {
      SubsequenceReflexive(s);
    } else {
      var k := |xs| - 1;
      var mid := PlaceAll(s, xs[..k], orders[..k]);
      PlaceAllKeepsExisting(s, xs[..k], orders[..k]);
      PlaceKeepsOthers(mid, xs[k], orders[k]);
      SubsequenceTransitive(s, mid, PlaceAll(s, xs, orders));
    }
  }

  /** After `add` the list holds exactly the old columns and the new ones. */
  lemma {:induction false} PlaceAllContents<T>(s: seq<T>, xs: seq<T>, orders: seq<Option<int>>)
    requires |xs| == |orders|
    ensures multiset(PlaceAll(s, xs, orders)) == multiset(s) + multiset(xs)
    decreases |xs|
  {
    if xs != [] {
      var k := |xs| - 1;
      var init, last := xs[..k], xs[k];
      var mid := PlaceAll(s, init, orders[..k]);
      assert PlaceAll(s, xs, orders) == Place(mid, last, orders[k]);
      assert xs == init + [last];
      PlaceAllContents(s, init, orders[..k]);
      PlaceAddsOne(mid, last, orders[k]);
    }
  }

  /** Columns without an order are appended, in the order given. */
  lemma {:induction false} PlaceAllWithoutOrdersAppends<T>(s: seq<T>, xs: seq<T>, orders: seq<Option<int>>)
    requires |xs| == |orders|
    requires forall i | 0 <= i < |orders| :: orders[i].None?
    ensures PlaceAll(s, xs, orders) == s + xs
    decreases |xs|
  {
    if xs != [] {
      var k := |xs| - 1;
      PlaceAllWithoutOrdersAppends(s, xs[..k], orders[..k]);
      assert xs == xs[..k] + [xs[k]];
    }
  }

  /** Columns given the orders 0, 1, 2, ... end up, in that order, in front
      of the existing ones. */
  lemma {:induction false} PlaceAllAtFront<T>(s: seq<T>, xs: seq<T>, orders: seq<Option<int>>)
    requires |xs| == |orders|
    requires forall i | 0 <= i < |orders| :: orders[i] == Some(i)
    ensures PlaceAll(s, xs, orders) == xs + s
    decreases |xs|
  {
    if xs != [] {
      var k := |xs| - 1;
      PlaceAllAtFront(s, xs[..k], orders[..k]);
      var before := xs[..k] + s;
      if k > 0 && k < |before| {
        assert before[..k] == xs[..k];
        assert before[k..] == s;
      }
      assert xs == xs[..k] + [xs[k]];
    }
  }

  /** A single `remove` step either leaves the list alone or deletes one
      column that is not the first. */
  lemma RemoveIdDeletesAtMostOne(s: seq<Column>, columnId: string)
    ensures var r := RemoveId(s, columnId);
      || r == s
      || exists i | 0 < i < |s| :: s[i].id == columnId && r == s[..i] + s[i + 1..]
  {
  }

  /** `remove` keeps the surviving columns in their order, and never removes
      the first column. */
  lemma {:induction false} RemoveIdsKeepsOrder(s: seq<Column>, ids: seq<string>)
    ensures IsSubsequence(RemoveIds(s, ids), s)
    ensures |s| > 0 ==> |RemoveIds(s, ids)| > 0 && RemoveIds(s, ids)[0] == s[0]
    decreases |ids|
  {
    if ids == [] {
      SubsequenceReflexive(s);
    } else {
      var mid := RemoveIds(s, ids[..|ids| - 1]);
      var r := RemoveIds(s, ids);
      RemoveIdsKeepsOrder(s, ids[..|ids| - 1]);
      RemoveIdDeletesAtMostOne(mid, ids[|ids| - 1]);
      if r == mid {
        SubsequenceReflexive(mid);
      } else {
        var i :| 0 < i < |mid| && mid[i].id == ids[|ids| - 1] && r == mid[..i] + mid[i + 1..];
        SubsequenceDeleteOne(mid, i);
        assert r[0] == mid[0];
      }
      SubsequenceTransitive(r, mid, s);
    }
  }

  /** Ids that name no column change nothing. */
  lemma {:induction false} RemoveIdsIgnoresUnknown(s: seq<Column>, ids: seq<string>)
    requires forall j | 0 <= j < |ids| :: ids[j] !in Ids(s)
    ensures RemoveIds(s, ids) == s
    decreases |ids|
  {
    if ids != [] {
      RemoveIdsIgnoresUnknown(s, ids[..|ids| - 1]);
    }
  }

  /** When ids are unique, removing an id that is not the first column's
      deletes exactly that column: it is gone and nothing else is. */
  lemma RemoveIdRemovesUnique(s: seq<Column>, columnId: string)
    requires forall i, j | 0 <= i < j < |s| :: s[i].id != s[j].id
    requires |s| > 0 && s[0].id != columnId
    ensures columnId !in Ids(RemoveId(s, columnId))
    ensures columnId in Ids(s) ==> |RemoveId(s, columnId)| == |s| - 1
    ensures columnId !in Ids(s) ==> RemoveId(s, columnId) == s
  {
    var r := RemoveId(s, columnId);
    if columnId in Ids(s) {
      var i := Arr.FirstIndex(HasId(columnId), s).value;
      assert HasId(columnId)(s[i]);
      assert r == s[..i] + s[i + 1..];
    }
  }

  datatype AddOutcome = Added | MissingData

  class ColumnRepository {
    var items: seq<Column>
    /** The host's `sanitize_title`. */
    const slug: string -> string

    /** A fresh repository holds the four WordPress columns, in order, all
        flagged default, without order and without value. */
    constructor (slug: string -> string)
      ensures this.slug == slug
      ensures Ids(items) == ["cb", "title", "author", "date"]
      ensures |items| == |DefaultColumns|
      ensures forall i | 0 <= i < |items| ::
        && fresh(items[i])
        && items[i].id == DefaultColumns[i].0
        && items[i].heading == DefaultColumns[i].1
        && items[i].isADefaultField
        && items[i].order.None?
        && items[i].value.None?
    {
      this.slug := slug;
      new;
      var defaults := GetDefaultColumns(slug);
      items := defaults;
    }

    /** `getDefaultColumns`. */
    static method GetDefaultColumns(slug: string -> string) returns (columns: seq<Column>)
      ensures |columns| == |DefaultColumns|
      ensures forall i | 0 <= i < |columns| ::
        && fresh(columns[i])
        && columns[i].id == DefaultColumns[i].0
        && columns[i].heading == DefaultColumns[i].1
        && columns[i].isADefaultField
        && columns[i].order.None?
        && columns[i].value.None?
    {
      columns := [];
      for i := 0 to |DefaultColumns|
        invariant |columns| == i
        invariant forall k | 0 <= k < i ::
          && fresh(columns[k])
          && columns[k].id == DefaultColumns[k].0
          && columns[k].heading == DefaultColumns[k].1
          && columns[k].isADefaultField
          && columns[k].order.None?
          && columns[k].value.None?
      {
        var c := new Column(DefaultColumns[i].1, None, None, Some(DefaultColumns[i].0), slug);
        c.SetAsADefaultField();
        columns := columns + [c];
      }
    }

    method All() returns (r: seq<Column>)
      ensures r == items
    {
      r := items;
    }

    /** `add`: an array or a closure (called with no arguments) yielding
        descriptors. A non-array leaves the list as it is. Descriptors are
        applied one at a time; the first one missing its label or value
        raises (MissingData) and the columns added before it stay. */
    method Add(columns: ArrayOrClosure<Descriptor, string>) returns (outcome: AddOutcome, ghost created: seq<Column>)
      modifies this`items
      ensures var batch := Elements(GetValueFromArrayOrClosure(columns, []));
        var n := CompletePrefix(batch);
        && |created| == n
        && MadeFromEach(created, batch, slug)
        && OrderedFromEach(created, batch)
        && items == PlaceAll(old(items), created, Orders(batch[..n]))
        && (outcome == MissingData <==> n < |batch|)
    {
      var resolved := GetValueFromArrayOrClosure(columns, []);
      created := [];
      outcome := Added;
      if !resolved.ArrayValue? {
        assert PlaceAll(items, [], Orders([])) == items;
        return;
      }
      var batch := resolved.elems;
      assert Elements(resolved) == batch;
      for n := 0 to |batch|
        invariant |created| == n
        invariant n <= CompletePrefix(batch)
        invariant MadeFromEach(created, batch, slug)
        invariant OrderedFromEach(created, batch)
        invariant items == PlaceAll(old(items), created, Orders(batch[..n]))
      {
        var column := AddColumnData(batch[n], old(items), created, batch, n);
        if column.None? {
          assert batch[..CompletePrefix(batch)] == batch[..n];
          outcome := MissingData;
          return;
        }
        created := created + [column.value];
      }
      assert batch[..|batch|] == batch;
    }

    /** The body of `add`'s loop for the n-th descriptor of the batch: the
        column is built, or the descriptor is refused and nothing changes;
        a built column is placed by its order. */
    method AddColumnData(columnData: Descriptor, ghost base: seq<Column>, ghost created: seq<Column>,
                         ghost batch: seq<Descriptor>, ghost n: nat)
      returns (column: Option<Column>)
      requires n < |batch| && columnData == batch[n] && |created| == n && n <= CompletePrefix(batch)
      requires MadeFromEach(created, batch, slug) && OrderedFromEach(created, batch)
      requires items == PlaceAll(base, created, Orders(batch[..n]))
      modifies this`items
      ensures column.None? ==> n == CompletePrefix(batch) && items == old(items) && OrderedFromEach(created, batch)
      ensures column.Some? ==>
        && n + 1 <= CompletePrefix(batch)
        && MadeFromEach(created + [column.value], batch, slug)
        && OrderedFromEach(created + [column.value], batch)
        && items == PlaceAll(base, created + [column.value], Orders(batch[..n + 1]))
    {
      column := Column.FromArray(columnData, slug);
      if column.Some? {
        var c := column.value;
        OrderedFromEachSnoc(created, batch, c);
        assert n + 1 <= CompletePrefix(batch);
        MadeFromEachSnoc(created, batch, slug, c);
        var order := c.GetOrder();
        PlaceNext(c, order, base, created, batch, n);
      }
    }

    /** Placing the n-th column extends the placement of the ones before it,
        and leaves every column's fields alone. */
    method PlaceNext(c: Column, order: Option<int>, ghost base: seq<Column>, ghost created: seq<Column>,
                     ghost batch: seq<Descriptor>, ghost n: nat)
      requires n < |batch| && |created| == n && order == batch[n].order
      requires items == PlaceAll(base, created, Orders(batch[..n]))
      requires OrderedFromEach(created + [c], batch)
      modifies this`items
      ensures items == PlaceAll(base, created + [c], Orders(batch[..n + 1]))
      ensures OrderedFromEach(created + [c], batch)
    {
      PlaceColumn(c, order);
      AddStep(base, created, batch, n, c);
    }

    /** The placing step of `add`'s loop body: a column with an order goes through
        `Arr::insert`, one without is appended. */
    method PlaceColumn(c: Column, order: Option<int>)
      modifies this`items
      ensures items == Place(old(items), c, order)
    {
      if order.Some? {
        items := Arr.Insert(c, order.value, items);
      }
      if order.None? {
        items := items + [c];
      }
    }

    /** `remove`: an array or a closure (called with no arguments) yielding
        ids, each removed in turn. */
    method Remove(columns: ArrayOrClosure<string, string>)
      modifies this`items
      ensures items == RemoveIds(old(items), Elements(GetValueFromArrayOrClosure(columns, [])))
    {
      var ids := Elements(GetValueFromArrayOrClosure(columns, []));
      for n := 0 to |ids|
        invariant items == RemoveIds(old(items), ids[..n])
      {
        var columnId := ids[n];
        var columnIndex := Arr.GetIndexWhere(HasId(columnId), items);
        // `if($columnIndex)`: null and 0 are both falsy.
        if columnIndex.Some? && columnIndex.value != 0 {
          items := items[..columnIndex.value] + items[columnIndex.value + 1..];
        }
        assert ids[..n + 1][..n] == ids[..n];
      }
      assert ids[..|ids|] == ids;
    }

    /** `reorder`: resolves its argument and changes nothing. */
    method Reorder(columns: ArrayOrClosure<string, string>)
      ensures items == old(items)
    {
      var resolved := GetValueFromArrayOrClosure(columns, []);
    }
  }

  /** `remove` of an id found first at a later position cuts out that column. */
  lemma RemoveIdAt(s: seq<Column>, columnId: string, i: nat)
    requires 0 < i < |s| && s[i].id == columnId && columnId !in Ids(s[..i])
    ensures RemoveId(s, columnId) == s[..i] + s[i + 1..]
  {
  }

  /** A column added at order 0 takes the first place: the column that was
      first moves to position 1, where `remove` reaches it, and the new one
      is the column `remove` cannot delete. */
  lemma RemoveAfterFrontInsert(s: seq<Column>, x: Column, columnId: string)
    requires |s| > 0 && s[0].id == columnId
    ensures x.id != columnId ==> RemoveId(Place(s, x, Some(0)), columnId) == [x] + s[1..]
    ensures x.id == columnId ==> RemoveId(Place(s, x, Some(0)), columnId) == Place(s, x, Some(0))
  {
    var t := Place(s, x, Some(0));
    assert t[0] == x && t[1..] == s;
    if x.id != columnId {
      assert Ids(t[..1]) == [x.id];
      RemoveIdAt(t, columnId, 1);
      assert t[..1] + t[2..] == [x] + s[1..];
    }
  }

  /** Removing `title` from the default list. */
  lemma RemoveTitle(s: seq<Column>)
    requires Ids(s) == ["cb", "title", "author", "date"]
    ensures Ids(RemoveIds(s, ["title"])) == ["cb", "author", "date"]
  {
    assert Ids(s)[0] == s[0].id && Ids(s)[1] == s[1].id;
    assert Ids(s[..1]) == [s[0].id];
    RemoveIdAt(s, "title", 1);
    assert ["title"][..0] == [];
    assert RemoveIds(s, ["title"]) == s[..1] + s[2..];
  }

  /** Removing `date` once `title` is gone. */
  lemma RemoveDate(s: seq<Column>)
    requires Ids(s) == ["cb", "author", "date"]
    ensures Ids(RemoveId(s, "date")) == ["cb", "author"]
  {
    assert Ids(s)[0] == s[0].id && Ids(s)[1] == s[1].id && Ids(s)[2] == s[2].id;
    assert Ids(s[..2]) == [s[0].id, s[1].id];
    RemoveIdAt(s, "date", 2);
    assert RemoveId(s, "date") == s[..2];
  }

  /** Removing `title` and then `date` from the default list leaves `cb`
      and `author`. */
  lemma RemoveTitleAndDate(s: seq<Column>)
    requires Ids(s) == ["cb", "title", "author", "date"]
    ensures Ids(RemoveIds(s, ["title", "date"])) == ["cb", "author"]
  {
    RemoveTitle(s);
    RemoveDate(RemoveIds(s, ["title"]));
    assert ["title", "date"][..1] == ["title"];
  }

  /** A fresh repository keeps `cb` when asked to remove it, and loses
      `title` and `date` when asked to remove those. */
  method RemoveFromDefaults(slug: string -> string) returns (afterCb: seq<string>, afterTwo: seq<string>)
    ensures afterCb == ["cb", "title", "author", "date"]
    ensures afterTwo == ["cb", "author"]
  {
    var repository := new ColumnRepository(slug);
    repository.Remove(Array(["cb"]));
    assert ["cb"][..0] == [];
    afterCb := Ids(repository.items);
    var other := new ColumnRepository(slug);
    RemoveTitleAndDate(other.items);
    other.Remove(Array(["title", "date"]));
    afterTwo := Ids(other.items);
  }

  /** Two descriptors given the orders 0 and 1 become the first two columns,
      in front of the defaults. */
  method AddInFront(slug: string -> string, price: Producer, photo: Producer) returns (first: Column, second: Column, count: nat)
    ensures first.heading == "Price" && first.value == Some(price)
    ensures second.heading == "Photo" && second.value == Some(photo)
    ensures count == 6
  {
    var repository := new ColumnRepository(slug);
    var batch := [
      Descriptor(Some("Price"), Some(price), Some(0), None),
      Descriptor(Some("Photo"), Some(photo), Some(1), None)
    ];
    var defaults := repository.items;
    var outcome, created := repository.Add(Array(batch));
    assert CompletePrefix(batch) == 2;
    assert batch[..2] == batch;
    PlaceAllAtFront(defaults, created, Orders(batch));
    first := repository.items[0];
    second := repository.items[1];
    count := |repository.items|;
  }
}

=== FILE: options.dfy ===
/** The optional value used wherever PHP returns `null` for "nothing". */
module Options {

  datatype Option<T> = None | Some(value: T)
}

=== FILE: ordered_maps.dfy ===
/** PHP arrays with string keys, as the column filters see them: an ordered
    list of key => value entries in which every key occurs once. */
module OrderedMaps {

  import opened Options
  import Arr

  datatype Entry<V> = Entry(key: string, value: V)

  /** `array_keys`: the keys, in order. */
  function Keys<V>(m: seq<Entry<V>>): (ks: seq<string>)
    ensures |ks| == |m|
    ensures forall i | 0 <= i < |m| :: ks[i] == m[i].key
  {
    seq(|m|, i requires 0 <= i < |m| => m[i].key)
  }

  predicate Distinct<T(==)>(s: seq<T>)
  {
    forall i, j | 0 <= i < j < |s| :: s[i] != s[j]
  }

  type OrderedMap<V> = m: seq<Entry<V>> | Distinct(Keys(m)) witness []

  function HasKey<V>(k: string): Entry<V> -> bool
  {
    (e: Entry<V>) => e.key == k
  }

  /** Where key k sits, if anywhere. */
  function IndexOf<V>(m: seq<Entry<V>>, k: string): (r: Option<nat>)
    ensures r.None? <==> k !in Keys(m)
    ensures r.Some? ==> r.value < |m| && m[r.value].key == k
  {
    Arr.FirstIndex(HasKey(k), m)
  }

  /** `$map[$k] ?? null`. */
  function Get<V>(m: OrderedMap<V>, k: string): (r: Option<V>)
    ensures r.None? <==> k !in Keys(m)
    ensures forall i | 0 <= i < |m| && m[i].key == k :: r == Some(m[i].value)
  {
    match IndexOf(m, k)
    case Some(i) => Some(m[i].value)
    case None => None
  }

  lemma GetAt<V>(m: OrderedMap<V>, i: nat)
    requires i < |m|
    ensures Get(m, m[i].key) == Some(m[i].value)
  {
  }

  /** `$map[$k] = $v`: an existing key keeps its place and takes the new
      value; a new key is appended. */
  function Put<V>(m: OrderedMap<V>, k: string, v: V): (r: OrderedMap<V>)
    ensures Get(r, k) == Some(v)
    ensures forall k' | k' != k :: Get(r, k') == Get(m, k')
    ensures k in Keys(m) ==> Keys(r) == Keys(m)
    ensures k !in Keys(m) ==> Keys(r) == Keys(m) + [k]
  {
    match IndexOf(m, k)
    case Some(i) =>
      assert Keys(m[i := Entry(k, v)]) == Keys(m);
      m[i := Entry(k, v)]
    case None =>
      assert Keys(m + [Entry(k, v)]) == Keys(m) + [k];
      m + [Entry(k, v)]
  }

  /** `unset($map[$k])`: the entry for k goes and the others keep their
      order and values. */
  function Unset<V>(m: OrderedMap<V>, k: string): (r: OrderedMap<V>)
    ensures k !in Keys(m) ==> r == m
    ensures forall i | 0 <= i < |m| && m[i].key == k :: r == m[..i] + m[i + 1..]
  {
    match IndexOf(m, k)
    case Some(i) =>
      assert Keys(m[..i] + m[i + 1..]) == Keys(m)[..i] + Keys(m)[i + 1..];
      m[..i] + m[i + 1..]
    case None => m
  }

  /** Every entry left by `unset` is an entry of the map other than the
      one at the key's position. */
  lemma UnsetEntry<V>(m: OrderedMap<V>, k: string, j: nat)
    requires j < |Unset(m, k)|
    ensures k in Keys(m) ==> j < |m| - 1
    ensures var i := if k in Keys(m) then IndexOf(m, k).value else |m|;
      Unset(m, k)[j] == if j < i then m[j] else m[j + 1]
  {
  }

  /** After `unset`, the key is gone. */
  lemma UnsetRemovesKey<V>(m: OrderedMap<V>, k: string)
    ensures k !in Keys(Unset(m, k))
  {
    var r := Unset(m, k);
    if k in Keys(r) {
      var j :| 0 <= j < |r| && Keys(r)[j] == k;
      UnsetEntry(m, k, j);
    }
  }

  /** After `unset`, every other key keeps its value. */
  lemma UnsetKeepsOthers<V>(m: OrderedMap<V>, k: string, k': string)
    requires k' != k
    ensures Get(Unset(m, k), k') == Get(m, k')
  {
    var r := Unset(m, k);
    if k' in Keys(m) && k in Keys(m) {
      var j :| 0 <= j < |m| && Keys(m)[j] == k';
      var i := IndexOf(m, k).value;
      var j' := if j < i then j else j - 1;
      UnsetEntry(m, k, j');
    }
    if k' in Keys(r) {
      var j :| 0 <= j < |r| && Keys(r)[j] == k';
      UnsetEntry(m, k, j);
    }
  }

  /** The keys of ks that are not in existing, in the order of ks. */
  function Fresh(ks: seq<string>, existing: seq<string>): (r: seq<string>)
    ensures forall x :: x in r <==> x in ks && x !in existing
    decreases |ks|
  {
    if ks == [] then []
    else
      var last := ks[|ks| - 1];
      assert ks == ks[..|ks| - 1] + [last];
      Fresh(ks[..|ks| - 1], existing) + (if last in existing then [] else [last])
  }

  /** The distinct elements of s, each at its first occurrence. */
  function Dedup(s: seq<string>): (r: seq<string>)
    ensures forall x :: x in r <==> x in s
    ensures Distinct(r)
    decreases |s|
  {
    if s == [] then []
    else
      var last := s[|s| - 1];
      assert s == s[..|s| - 1] + [last];
      var front := Dedup(s[..|s| - 1]);
      if last in front then front else front + [last]
  }

  /** `array_merge($a, $b)` on string keys: the entries of b, one at a
      time, written into a. */
  function Merge<V>(a: OrderedMap<V>, b: OrderedMap<V>): (r: OrderedMap<V>)
    decreases |b|
  {
    if b == [] then a
    else
      var last := b[|b| - 1];
      Put(Merge(a, b[..|b| - 1]), last.key, last.value)
  }

  lemma KeysOfInit<V>(m: seq<Entry<V>>)
    requires m != []
    ensures Keys(m) == Keys(m[..|m| - 1]) + [m[|m| - 1].key]
  {
  }

  /** In `array_merge`, the second array's values win; keys only in the
      first keep their values. */
  lemma {:induction false} MergeGet<V>(a: OrderedMap<V>, b: OrderedMap<V>, k: string)
    ensures Get(Merge(a, b), k) == if k in Keys(b) then Get(b, k) else Get(a, k)
    decreases |b|
  {
    if b != [] {
      var init: OrderedMap<V> := b[..|b| - 1];
      var last := b[|b| - 1];
      MergeGet(a, init, k);
      KeysOfInit(b);
      if k != last.key && k in Keys(init) {
        var i :| 0 <= i < |init| && Keys(init)[i] == k;
        assert b[i] == init[i];
      }
    }
  }

  /** In `array_merge`, the first array's keys keep their places and the
      second array's new keys follow, in its order. */
  lemma {:induction false} MergeKeys<V>(a: OrderedMap<V>, b: OrderedMap<V>)
    ensures Keys(Merge(a, b)) == Keys(a) + Fresh(Keys(b), Keys(a))
    decreases |b|
  {
    if b != [] {
      var init: OrderedMap<V> := b[..|b| - 1];
      var last := b[|b| - 1];
      MergeKeys(a, init);
      KeysOfInit(b);
      assert last.key !in Keys(init);
      assert Keys(b)[..|b| - 1] == Keys(init);
    }
  }
}

=== FILE: posty.dfy ===
/** `Posty`: one custom post type, its labels and arguments, and the column
    filters and cell actions it adds to the post type's admin list. */
module PostTypes {

  import opened Options
  import opened OrderedMaps
  import opened ColumnFilters

  /** A value of the post type's arguments array: null, a scalar, a list (an
      array with keys 0, 1, ...), or an array with string keys. */
  datatype Argument =
    | Null
    | Flag(flag: bool)
    | Number(number: int)
    | Real(float: real)
    | Text(text: string)
    | List(items: seq<Argument>)
    | Dict(entries: OrderedMap<Argument>)

  const LabelKeys: seq<string> := [
    "name", "singular_name", "add_new", "add_new_item", "edit_item", "new_item",
    "all_items", "view_item", "search_items", "not_found", "not_found_in_trash",
    "parent_item_colon", "menu_name"
  ]

  const ArgumentKeys: seq<string> := ["labels", "public", "rewrite", "has_archive", "supports"]

  const Supports: seq<Argument> := [
    Text("title"), Text("editor"), Text("excerpt"), Text("author"), Text("thumbnail"), Text("revisions")
  ]

  /** An array of strings as an argument value. */
  function Texts(m: OrderedMap<string>): (r: OrderedMap<Argument>)
    ensures Keys(r) == Keys(m)
    ensures forall i | 0 <= i < |m| :: r[i] == Entry(m[i].key, Text(m[i].value))
  {
    var r := seq(|m|, i requires 0 <= i < |m| => Entry(m[i].key, Text(m[i].value)));
    assert Keys(r) == Keys(m);
    r
  }

  /** Reading a key of the converted array reads the string there. */
  lemma TextsGet(m: OrderedMap<string>, k: string)
    ensures Get(Texts(m), k) == if k in Keys(m) then Some(Text(Get(m, k).value)) else None
  {
    if k in Keys(m) {
      var i :| 0 <= i < |m| && Keys(m)[i] == k;
      GetAt(m, i);
      GetAt(Texts(m), i);
    }
  }

  /** `getDefaultLabels`, with the host's `strtolower` passed in as lower. */
  function DefaultLabels(singular: string, plural: string, lower: string -> string): (r: OrderedMap<string>)
    ensures Keys(r) == LabelKeys
  {
    var r := [
      Entry("name", plural),
      Entry("singular_name", singular),
      Entry("add_new", "Add New"),
      Entry("add_new_item", "Add New " + singular),
      Entry("edit_item", "Edit " + singular),
      Entry("new_item", "New " + singular),
      Entry("all_items", "All " + plural),
      Entry("view_item", "View " + plural),
      Entry("search_items", "Search " + plural),
      Entry("not_found", "No " + lower(plural) + " found"),
      Entry("not_found_in_trash", "No " + lower(plural) + " found in Trash"),
      Entry("parent_item_colon", ""),
      Entry("menu_name", plural)
    ];
    assert Keys(r) == LabelKeys;
    LabelKeysDistinct();
    r
  }

  /** The default labels for one item are built from the singular name. */
  lemma DefaultLabelsSingular(singular: string, plural: string, lower: string -> string)
    ensures var labels := DefaultLabels(singular, plural, lower);
      && Get(labels, "singular_name") == Some(singular)
      && Get(labels, "add_new_item") == Some("Add New " + singular)
      && Get(labels, "edit_item") == Some("Edit " + singular)
      && Get(labels, "new_item") == Some("New " + singular)
  {
    var labels := DefaultLabels(singular, plural, lower);
    GetAt(labels, 1);
    GetAt(labels, 3);
    GetAt(labels, 4);
    GetAt(labels, 5);
  }

  /** The default labels for the collection are built from the plural name. */
  lemma DefaultLabelsPlural(singular: string, plural: string, lower: string -> string)
    ensures var labels := DefaultLabels(singular, plural, lower);
      && Get(labels, "name") == Some(plural)
      && Get(labels, "all_items") == Some("All " + plural)
      && Get(labels, "view_item") == Some("View " + plural)
      && Get(labels, "search_items") == Some("Search " + plural)
      && Get(labels, "menu_name") == Some(plural)
  {
    var labels := DefaultLabels(singular, plural, lower);
    GetAt(labels, 0);
    GetAt(labels, 6);
    GetAt(labels, 7);
    GetAt(labels, 8);
    GetAt(labels, 12);
  }

  /** The "not found" labels use the lower-case plural name. */
  lemma DefaultLabelsNotFound(singular: string, plural: string, lower: string -> string)
    ensures var labels := DefaultLabels(singular, plural, lower);
      && Get(labels, "not_found") == Some("No " + lower(plural) + " found")
      && Get(labels, "not_found_in_trash") == Some("No " + lower(plural) + " found in Trash")
  {
    var labels := DefaultLabels(singular, plural, lower);
    GetAt(labels, 9);
    GetAt(labels, 10);
  }

  /** Two labels do not depend on the names at all. */
  lemma DefaultLabelsFixed(singular: string, plural: string, lower: string -> string)
    ensures var labels := DefaultLabels(singular, plural, lower);
      && Get(labels, "add_new") == Some("Add New")
      && Get(labels, "parent_item_colon") == Some("")
  {
    var labels := DefaultLabels(singular, plural, lower);
    GetAt(labels, 2);
    GetAt(labels, 11);
  }

  lemma LabelKeysDistinct()
    ensures Distinct(LabelKeys)
  {
  }

  /** `getDefaultArguments`: it carries the labels as they are when it runs;
      the host's `sanitize_title` is passed in as slug. */
  function DefaultArguments(labels: OrderedMap<string>, plural: string, slug: string -> string): (r: OrderedMap<Argument>)
    ensures Keys(r) == ArgumentKeys
    ensures Get(r, "labels") == Some(Dict(Texts(labels)))
    ensures Get(r, "public") == Some(Flag(true)) && Get(r, "has_archive") == Some(Flag(true))
    ensures Get(r, "rewrite") == Some(Dict([Entry("slug", Text(slug(plural)))]))
    ensures Get(r, "supports") == Some(List(Supports))
  {
    var r := [
      Entry("labels", Dict(Texts(labels))),
      Entry("public", Flag(true)),
      Entry("rewrite", Dict([Entry("slug", Text(slug(plural)))])),
      Entry("has_archive", Flag(true)),
      Entry("supports", List(Supports))
    ];
    assert Keys(r) == ArgumentKeys;
    GetAt(r, 0);
    GetAt(r, 1);
    GetAt(r, 2);
    GetAt(r, 3);
    GetAt(r, 4);
    r
  }

  /** `setLabels` and `setArguments` both merge over the defaults: a key the
      caller gives takes the caller's value, any other default stays, and
      new keys follow the default ones. */
  lemma OverrideDefaults<V>(defaults: OrderedMap<V>, given: OrderedMap<V>, k: string)
    ensures Keys(Merge(defaults, given)) == Keys(defaults) + Fresh(Keys(given), Keys(defaults))
    ensures k in Keys(given) ==> Get(Merge(defaults, given), k) == Get(given, k)
    ensures k !in Keys(given) ==> Get(Merge(defaults, given), k) == Get(defaults, k)
  {
    MergeKeys(defaults, given);
    MergeGet(defaults, given, k);
  }

  /** Arguments a shop plugin might pass: an icon, a menu position and a
      nested `rewrite` without a `slug`. */
  const ShopArguments: OrderedMap<Argument> := [
    Entry("menu_icon", Text("dashicons-cart")),
    Entry("menu_position", Number(5)),
    Entry("rewrite", Dict([Entry("with_front", Flag(false))]))
  ]

  lemma ShopArgumentsGet()
    ensures Get(ShopArguments, "menu_position") == Some(Number(5))
    ensures Get(ShopArguments, "rewrite") == Some(Dict([Entry("with_front", Flag(false))]))
    ensures "public" !in Keys(ShopArguments)
  {
    GetAt(ShopArguments, 1);
    GetAt(ShopArguments, 2);
  }

  /** `array_merge` is shallow: a nested array given to `setArguments`
      replaces the default one whole, so a `rewrite` without a `slug` drops
      the default slug. Scalars of any kind are taken as given, and the
      defaults not given stay. */
  lemma ShallowOverride(labels: OrderedMap<string>, plural: string, slug: string -> string)
    ensures var r := Merge(DefaultArguments(labels, plural, slug), ShopArguments);
      && Get(r, "rewrite") == Some(Dict([Entry("with_front", Flag(false))]))
      && Get(r, "menu_position") == Some(Number(5))
      && Get(r, "public") == Some(Flag(true))
  {
    var defaults := DefaultArguments(labels, plural, slug);
    ShopArgumentsGet();
    MergeGet(defaults, ShopArguments, "rewrite");
    MergeGet(defaults, ShopArguments, "menu_position");
    MergeGet(defaults, ShopArguments, "public");
  }

  /** Whether PHP treats an `int|null` order as true: null and 0 do not. */
  predicate Truthy(order: Option<int>)
  {
    order.Some? && order.value != 0
  }

  /** The filters one `addColumn` call adds: the heading, then, for a
      truthy order, the move. */
  function AddColumnFilters(key: string, name: string, order: Option<int>): (fs: seq<Filter>)
    ensures Truthy(order) ==> fs == [AddFilter(key, name), ReorderFilter(OrderClosure(MoveColumn(key, order.value)))]
    ensures !Truthy(order) ==> fs == [AddFilter(key, name)]
  {
    [AddFilter(key, name)] + if Truthy(order) then [ReorderFilter(OrderClosure(MoveColumn(key, order.value)))] else []
  }

  /** What the filters of one `addColumn` call do to the column map: the
      heading is set under the key (appended when new), and with a truthy
      order the keys are then rearranged by MoveKey; otherwise nothing
      moves. */
  lemma AddColumnFiltersSpec(key: string, name: string, order: Option<int>, m: ColumnMap, k: string)
    ensures var added := Put(m, key, Heading(name));
      var r := ApplyAll(AddColumnFilters(key, name, order), m);
      && Get(r, key) == Some(Heading(name))
      && Get(r, k) == Get(added, k)
      && (!Truthy(order) ==> r == added)
      && (Truthy(order) ==> Keys(r) == MoveKey(key, order.value, Keys(added)))
  {
    ApplyAllSnoc([], AddFilter(key, name), m);
    assert [] + [AddFilter(key, name)] == [AddFilter(key, name)];
    if Truthy(order) {
      AddThenMove(m, key, name, order.value, k);
    }
  }

  /** The filters of a run of `removeColumn` calls. */
  function RemoveFilters(keys: seq<string>): (fs: seq<Filter>)
    ensures |fs| == |keys|
    ensures forall i | 0 <= i < |keys| :: fs[i] == RemoveFilter(keys[i])
  {
    seq(|keys|, i requires 0 <= i < |keys| => RemoveFilter(keys[i]))
  }

  /** After the filters of `removeColumns` run, none of the listed keys is
      left, and every other column keeps its heading. */
  lemma {:induction false} RemoveFiltersSpec(keys: seq<string>, m: ColumnMap, k: string)
    ensures k in keys ==> k !in Keys(ApplyAll(RemoveFilters(keys), m))
    ensures k !in keys ==> Get(ApplyAll(RemoveFilters(keys), m), k) == Get(m, k)
    decreases |keys|
  {
    if keys != [] {
      var n := |keys| - 1;
      var before := ApplyAll(RemoveFilters(keys[..n]), m);
      assert RemoveFilters(keys) == RemoveFilters(keys[..n]) + [RemoveFilter(keys[n])];
      ApplyAllSnoc(RemoveFilters(keys[..n]), RemoveFilter(keys[n]), m);
      RemoveFiltersSpec(keys[..n], m, k);
      RemoveFilterSpec(keys[n], before, k);
      if k in keys && k != keys[n] {
        assert k in keys[..n];
        if k in Keys(before) {
          assert false;
        }
      }
    }
  }

  /** An entry of `addColumns`: `name` and `callback` are required; `order`
      may be absent. */
  datatype ColumnSpec = ColumnSpec(name: Option<string>, callback: Option<int -> string>, order: Option<int>)

  predicate IsComplete(spec: ColumnSpec)
  {
    spec.name.Some? && spec.callback.Some?
  }

  /** How many entries `addColumns` adds: those before the first incomplete
      one. */
  function CompleteSpecs(specs: seq<ColumnSpec>): (n: nat)
    ensures n <= |specs|
    ensures forall j | 0 <= j < n :: IsComplete(specs[j])
    ensures n < |specs| ==> !IsComplete(specs[n])
    decreases |specs|
  {
    if specs == [] || !IsComplete(specs[0]) then 0 else 1 + CompleteSpecs(specs[1..])
  }

  /** The column filters a run of `addColumn` calls adds. */
  function AddColumnsFilters(slug: string -> string, specs: seq<ColumnSpec>): seq<Filter>
    requires forall j | 0 <= j < |specs| :: IsComplete(specs[j])
    decreases |specs|
  {
    if specs == [] then []
    else
      var last := specs[|specs| - 1];
      assert IsComplete(last);
      AddColumnsFilters(slug, specs[..|specs| - 1])
        + AddColumnFilters(slug(last.name.value), last.name.value, last.order)
  }

  /** The cell actions a run of `addColumn` calls adds. */
  function AddColumnsActions(slug: string -> string, specs: seq<ColumnSpec>): (r: seq<CellAction>)
    requires forall j | 0 <= j < |specs| :: IsComplete(specs[j])
    ensures |r| == |specs|
    ensures forall j | 0 <= j < |specs| ::
      IsComplete(specs[j]) && r[j] == CellAction(slug(specs[j].name.value), specs[j].callback.value)
  {
    seq(|specs|, j requires 0 <= j < |specs| && IsComplete(specs[j]) =>
      CellAction(slug(specs[j].name.value), specs[j].callback.value))
  }

  /** The action `addColumn` adds to the cell hook: for its own column it
      echoes the callback's result for the post, for any other column it
      prints nothing. */
  datatype CellAction = CellAction(key: string, callback: int -> string)

  function Render(action: CellAction, column: string, postId: int): (out: string)
    ensures column == action.key ==> out == action.callback(postId)
    ensures column != action.key ==> out == ""
  {
    if column == action.key then action.callback(postId) else ""
  }

  class Posty {
    const name: string
    const singularName: string
    const pluralName: string
    /** The host's `sanitize_title` and `strtolower`. */
    const slug: string -> string
    const lower: string -> string
    var labels: OrderedMap<string>
    var arguments: OrderedMap<Argument>
    /** The filters added to `manage_{name}_posts_columns`, in the order
        they were added. */
    var columnFilters: seq<Filter>
    /** The actions added to `manage_{name}_posts_custom_column`, in the
        order they were added. */
    var cellActions: seq<CellAction>

    /** Labels are computed first, so the default arguments carry them. */
    constructor (name: string, singular: string, plural: string, slug: string -> string, lower: string -> string)
      ensures this.name == name && singularName == singular && pluralName == plural
      ensures this.slug == slug && this.lower == lower
      ensures labels == DefaultLabels(singular, plural, lower)
      ensures arguments == DefaultArguments(labels, plural, slug)
      ensures columnFilters == [] && cellActions == []
    {
      this.name := name;
      singularName := singular;
      pluralName := plural;
      this.slug := slug;
      this.lower := lower;
      labels := DefaultLabels(singular, plural, lower);
      arguments := DefaultArguments(DefaultLabels(singular, plural, lower), plural, slug);
      columnFilters := [];
      cellActions := [];
    }

    /** `setLabels`: the defaults overridden by the given labels. The
        arguments keep the labels they were built with. */
    method SetLabels(given: OrderedMap<string>)
      modifies this`labels
      ensures labels == Merge(DefaultLabels(singularName, pluralName, lower), given)
    {
      labels := Merge(DefaultLabels(singularName, pluralName, lower), given);
    }

    /** `setArguments`: fresh defaults, built with the current labels,
        overridden by the given arguments. */
    method SetArguments(given: OrderedMap<Argument>)
      modifies this`arguments
      ensures arguments == Merge(DefaultArguments(labels, pluralName, slug), given)
    {
      arguments := Merge(DefaultArguments(labels, pluralName, slug), given);
    }

    /** `removeColumn`: adds a filter that unsets the key. */
    method RemoveColumn(columnToRemove: string)
      modifies this`columnFilters
      ensures columnFilters == old(columnFilters) + [RemoveFilter(columnToRemove)]
    {
      columnFilters := columnFilters + [RemoveFilter(columnToRemove)];
    }

    /** `removeColumns`: one `removeColumn` per key, in order. */
    method RemoveColumns(columnsToRemove: seq<string>)
      modifies this`columnFilters
      ensures columnFilters == old(columnFilters) + RemoveFilters(columnsToRemove)
    {
      for i := 0 to |columnsToRemove|
        invariant columnFilters == old(columnFilters) + RemoveFilters(columnsToRemove[..i])
      {
        RemoveColumn(columnsToRemove[i]);
        assert RemoveFilters(columnsToRemove[..i + 1])
            == RemoveFilters(columnsToRemove[..i]) + [RemoveFilter(columnsToRemove[i])];
      }
      assert columnsToRemove[..|columnsToRemove|] == columnsToRemove;
    }

    /** `reorderColumns`: adds a filter that reorders by the given list or
        closure. */
    method ReorderColumns(columnOrder: ColumnOrder)
      modifies this`columnFilters
      ensures columnFilters == old(columnFilters) + [ReorderFilter(columnOrder)]
    {
      columnFilters := columnFilters + [ReorderFilter(columnOrder)];
    }

    /** `addColumn`: a filter that sets the heading under the slug of the
        name, an action that renders the cells, and, only for a truthy
        order, a filter that moves the column there. */
    method AddColumn(columnName: string, callback: int -> string, order: Option<int>)
      modifies this`columnFilters, this`cellActions
      ensures columnFilters == old(columnFilters) + AddColumnFilters(slug(columnName), columnName, order)
      ensures cellActions == old(cellActions) + [CellAction(slug(columnName), callback)]
    {
      var key := slug(columnName);
      columnFilters := columnFilters + [AddFilter(key, columnName)];
      cellActions := cellActions + [CellAction(key, callback)];
      if Truthy(order) {
        ReorderColumns(OrderClosure(MoveColumn(key, order.value)));
      }
    }

    /** `addColumns`: `addColumn` for each entry, stopping at the first one
        without a name or a callback. */
    method AddColumns(columnsToAdd: seq<ColumnSpec>)
      modifies this`columnFilters, this`cellActions
      ensures var n := CompleteSpecs(columnsToAdd);
        && columnFilters == old(columnFilters) + AddColumnsFilters(slug, columnsToAdd[..n])
        && cellActions == old(cellActions) + AddColumnsActions(slug, columnsToAdd[..n])
    {
      var n := 0;
      while n < |columnsToAdd|
        invariant n <= CompleteSpecs(columnsToAdd)
        invariant columnFilters == old(columnFilters) + AddColumnsFilters(slug, columnsToAdd[..n])
        invariant cellActions == old(cellActions) + AddColumnsActions(slug, columnsToAdd[..n])
      {
        var spec := columnsToAdd[n];
        if !IsComplete(spec) {
          break;
        }
        AddColumn(spec.name.value, spec.callback.value, spec.order);
        assert columnsToAdd[..n + 1][..n] == columnsToAdd[..n];
        n := n + 1;
      }
      assert columnsToAdd[..CompleteSpecs(columnsToAdd)] == columnsToAdd[..n];
    }
  }

  /** The labels array `['name' => $newName]`. */
  function Renaming(newName: string): OrderedMap<string>
  {
    [Entry("name", newName)]
  }

  /** Giving `setLabels` a `name` overrides the default one. */
  lemma RenamedLabel(defaults: OrderedMap<string>, newName: string)
    ensures Get(Merge(defaults, Renaming(newName)), "name") == Some(newName)
  {
    GetAt(Renaming(newName), 0);
    OverrideDefaults(defaults, Renaming(newName), "name");
  }

  /** Labels set after construction do not reach the arguments: the
      `labels` argument still holds the defaults. */
  method RelabelKeepsArguments(singular: string, plural: string, newName: string,
                               slug: string -> string, lower: string -> string)
    returns (before: Option<Argument>, name: Option<string>)
    ensures name == Some(newName)
    ensures before == Some(Dict(Texts(DefaultLabels(singular, plural, lower))))
  {
    var posty := new Posty("product", singular, plural, slug, lower);
    posty.SetLabels(Renaming(newName));
    RenamedLabel(DefaultLabels(singular, plural, lower), newName);
    name := Get(posty.labels, "name");
    before := Get(posty.arguments, "labels");
  }

  /** A new post type whose labels were then given a new `name`. */
  method Relabelled(singular: string, plural: string, newName: string,
                    slug: string -> string, lower: string -> string)
    returns (posty: Posty)
    ensures fresh(posty)
    ensures posty.labels == Merge(DefaultLabels(singular, plural, lower), Renaming(newName))
    ensures posty.pluralName == plural && posty.slug == slug
  {
    posty := new Posty("product", singular, plural, slug, lower);
    posty.SetLabels(Renaming(newName));
  }

  /** `setArguments` after `setLabels` rebuilds the `labels` argument, which
      then carries the new name, unless the given arguments bring their own
      `labels`. */
  method RelabelThenRebuild(singular: string, plural: string, newName: string, given: OrderedMap<Argument>,
                            slug: string -> string, lower: string -> string)
    returns (after: Option<Argument>)
    ensures "labels" !in Keys(given) ==>
      after.Some? && after.value.Dict? && Get(after.value.entries, "name") == Some(Text(newName))
    ensures "labels" in Keys(given) ==> after == Get(given, "labels")
  {
    var posty := Relabelled(singular, plural, newName, slug, lower);
    posty.SetArguments(given);
    RenameReachesArguments(DefaultLabels(singular, plural, lower), newName, given, plural, slug);
    after := Get(posty.arguments, "labels");
  }

  /** Once the labels carry a new `name`, rebuilding the arguments brings
      it into the `labels` argument, unless the given arguments set it. */
  lemma RenameReachesArguments(defaults: OrderedMap<string>, newName: string, given: OrderedMap<Argument>,
                               plural: string, slug: string -> string)
    ensures var r := Get(Merge(DefaultArguments(Merge(defaults, Renaming(newName)), plural, slug), given), "labels");
      && ("labels" !in Keys(given) ==> r.Some? && r.value.Dict? && Get(r.value.entries, "name") == Some(Text(newName)))
      && ("labels" in Keys(given) ==> r == Get(given, "labels"))
  {
    var labels := Merge(defaults, Renaming(newName));
    RenamedLabel(defaults, newName);
    TextsGet(labels, "name");
    OverrideDefaults(DefaultArguments(labels, plural, slug), given, "labels");
  }
}

=== FILE: repository.dfy ===
/** `Posty\Support\Repository`: a keyed container with array-style access. */
module Repositories {

  import opened Options

  /** A PHP array key. */
  datatype Key = IntKey(i: int) | StringKey(s: string)

  /** Items are held as a map from key to a possibly-null value; `nextFree`
      is the integer key the next `[] =` append uses. */
  class Repository<V> {
    var items: map<Key, Option<V>>
    var nextFree: nat

    /** Appending never overwrites: every integer key lies below `nextFree`. */
    ghost predicate Valid()
      reads this
    {
      forall k: int | IntKey(k) in items :: k < nextFree
    }

    constructor ()
      ensures Valid()
      ensures items == map[] && nextFree == 0
    {
      items := map[];
      nextFree := 0;
    }

    /** `offsetExists`: `isset`, so a key holding null does not exist. */
    method OffsetExists(offset: Key) returns (b: bool)
      ensures b <==> offset in items && items[offset].Some?
    {
      b := offset in items && items[offset].Some?;
    }

    /** `offsetGet`: the stored value, or null for an absent key. */
    method OffsetGet(offset: Key) returns (r: Option<V>)
      ensures offset !in items ==> r.None?
      ensures offset in items ==> r == items[offset]
    {
      r := if offset in items then items[offset] else None;
    }

    /** `offsetSet`: a null offset appends at the next free integer key;
        any other offset stores at that key. Other keys are unchanged. */
    method OffsetSet(offset: Option<Key>, value: Option<V>)
      requires Valid()
      modifies this
      ensures Valid()
      ensures offset.None? ==> IntKey(old(nextFree)) !in old(items)
      ensures offset.None? ==> items == old(items)[IntKey(old(nextFree)) := value] && nextFree == old(nextFree) + 1
      ensures offset.Some? ==> items == old(items)[offset.value := value]
      ensures offset.Some? && offset.value.IntKey? && offset.value.i >= old(nextFree) ==> nextFree == offset.value.i + 1
      ensures offset.Some? && !(offset.value.IntKey? && offset.value.i >= old(nextFree)) ==> nextFree == old(nextFree)
    {
      if offset.None? {
        items := items[IntKey(nextFree) := value];
        nextFree := nextFree + 1;
      } else {
        items := items[offset.value := value];
        if offset.value.IntKey? && offset.value.i >= nextFree {
          nextFree := offset.value.i + 1;
        }
      }
    }

    /** `offsetUnset`: removes only `offset`. */
    method OffsetUnset(offset: Key)
      requires Valid()
      modifies this
      ensures Valid()
      ensures items == old(items) - {offset} && nextFree == old(nextFree)
    {
      items := items - {offset};
    }
  }

  /** Five appended items then one more: the last lands at key 5; after
      `unset`, key 0 reads as null. */
  method AppendAfterFiveItems() returns (got: Option<int>, first: bool, gone: Option<int>)
    ensures got == Some(6) && first && gone.None?
  {
    var r := new Repository<int>();
    r.OffsetSet(None, Some(1));
    r.OffsetSet(None, Some(2));
    r.OffsetSet(None, Some(3));
    r.OffsetSet(None, Some(4));
    r.OffsetSet(None, Some(5));
    r.OffsetSet(None, Some(6));
    got := r.OffsetGet(IntKey(5));
    first := r.OffsetExists(IntKey(0));
    r.OffsetUnset(IntKey(0));
    gone := r.OffsetGet(IntKey(0));
  }
}

=== FILE: subsequences.dfy ===
/** Relative order of elements, used to state that an operation keeps
    the untouched elements of a list in the order they had. */
module Subsequences {

  /** The elements of `a` occur in `b` in the same relative order
      (`a` is `b` with some elements deleted). */
  ghost predicate IsSubsequence<T>(a: seq<T>, b: seq<T>)
    decreases |b|
  {
    if a == [] then true
    else if b == [] then false
    else (a[0] == b[0] && IsSubsequence(a[1..], b[1..])) || IsSubsequence(a, b[1..])
  }

  lemma {:induction false} SubsequenceReflexive<T>(s: seq<T>)
    ensures IsSubsequence(s, s)
    decreases |s|
  {
    if s != [] {
      SubsequenceReflexive(s[1..]);
    }
  }

  /** Deleting one element leaves a subsequence. */
  lemma {:induction false} SubsequenceDeleteOne<T>(s: seq<T>, i: nat)
    requires i < |s|
    ensures IsSubsequence(s[..i] + s[i + 1..], s)
    decreases i
  {
    var r := s[..i] + s[i + 1..];
    if i == 0 {
      assert r == s[1..];
      SubsequenceReflexive(s[1..]);
    } else {
      SubsequenceDeleteOne(s[1..], i - 1);
      assert r[0] == s[0];
      assert r[1..] == s[1..][..i - 1] + s[1..][i..];
    }
  }

  lemma {:induction false} SubsequenceTransitive<T>(a: seq<T>, b: seq<T>, c: seq<T>)
    requires IsSubsequence(a, b) && IsSubsequence(b, c)
    ensures IsSubsequence(a, c)
    decreases |c|
  {
    if a != [] {
      assert b != [] && c != [];
      if IsSubsequence(b, c[1..]) {
        SubsequenceTransitive(a, b, c[1..]);
      } else if a[0] == b[0] && IsSubsequence(a[1..], b[1..]) {
        SubsequenceTransitive(a[1..], b[1..], c[1..]);
      } else {
        SubsequenceTransitive(a, b[1..], c[1..]);
      }
    }
  }
}

=== FILE: values.dfy ===
/** The `Values` trait: arguments that may be an array or a closure
    producing one. */
module Values {

  /** What a resolved argument is: an array, or (only when a closure
      returned it) a scalar or null. Objects are not modelled. */
  datatype Resolved<T> = ArrayValue(elems: seq<T>) | NotAnArray

  /** An argument as PHP sees it: an array, a closure called with the
      closure arguments spread, or any other value. */
  datatype ArrayOrClosure<T, !A> =
    | Array(elems: seq<T>)
    | Closure(call: seq<A> -> Resolved<T>)
    | OtherValue

  /** `getValueFromArrayOrClosure`: an array is returned unchanged, a closure
      is called once and its result returned unchecked, anything else
      yields the empty array. */
  function GetValueFromArrayOrClosure<T, A>(value: ArrayOrClosure<T, A>, closureArguments: seq<A>): (r: Resolved<T>)
    ensures value.Array? ==> r == ArrayValue(value.elems)
    ensures value.Closure? ==> r == value.call(closureArguments)
    ensures value.OtherValue? ==> r == ArrayValue([])
    ensures r.NotAnArray? ==> value.Closure?
  {
    match value
    case Array(elems) => ArrayValue(elems)
    case Closure(call) => call(closureArguments)
    case OtherValue => ArrayValue([])
  }

  /** The elements a `foreach` over a resolved value visits: none for a
      scalar or null. */
  function Elements<T>(r: Resolved<T>): (s: seq<T>)
    ensures r.NotAnArray? ==> s == []
  {
    if r.ArrayValue? then r.elems else []
  }
}
